=== FILE: README.md ===
# run-cmd: a Dafny model of the changed-files FTP uploader

`run-cmd.py` asks git which files changed (`get_changed_files`), opens an FTP
session and uploads each file into the same relative directory on the server,
creating the directories it needs on the way (`uploads`, `ftp_send_files`,
`ftp_send_file`, `chdir_nested`, `chdir`, `directory_exists`). Its settings
come from `key=value` arguments on the command line.

This project models that script as pure functions over immutable data:

- `Outcome`: `Option`, `Result` and the errors the script can raise
  (`IndexError`, `FileNotFound`, `ZeroDivision`, a refused FTP command, a
  failed connection).
- `Text`: the Python string primitives the script relies on: `str.isspace`,
  `str.split()` (`Tokens`), `str.split(sep)` (`Split`) with its inverse
  `Join`, and `str.removeprefix`.
- `PosixPath`: `os.path.normpath`, `dirname`, `basename` and `splitext`
  with `os.sep == '/'`.
- `ChangeSet`: the git query each change mode selects and the shell line
  `cd <path> && <query>`.
- `Listing`: `directory_exists` over the lines of a LIST reply.
- `Remote`: the FTP server as a list of entries, and a session with a
  cursor, an open flag and a trace of the MKD, CWD, STOR and QUIT commands
  sent. Each command records the directory it was sent from.
- `Navigation`: `chdir` and `chdir_nested`.
- `Upload`: the remote file name, `ftp_send_file`, `ftp_send_files` and
  `uploads`.
- `Cli`: the argument loop of the script's main block, and the whole run.

Every FTP command, `chdir`, `chdir_nested` and send returns a `Step`: `Done(session)`, or
`Raised(session, error)` with the session as it stood when the exception
left the operation. The session records the commands sent up to that point.

Behaviours of the code that are easy to misread:

- A rename that has an extension replaces the whole name. `data/input.csv`
  renamed `report.csv` is stored as `report.csv` (lines 71-74); so is a
  rename to `report`. `Upload.RenameReplacesRoot` states both.
- A refused STOR raises before `chdir(session, os.sep)` on line 84, so the
  cursor stays where the STOR was sent (`Upload.SendFileNoRestore`).
- An empty file list raises `ZeroDivisionError`. The closing `progress_bar`
  call on line 96 divides by `len(file_paths)` (`Upload.SendFiles`).
- The script's default base directory is `''`, which is not `None`.
  `normpath('')` is `'.'`. So when the first file can be opened, the first
  command is `MKD .` unless LIST shows the dot entries
  (`Upload.DefaultBaseDirRefused`).
- An absolute base directory normalises to segments that start with `''`.
  `chdir('')` therefore sends `MKD ` with an empty name, which is refused
  (`Navigation.AbsoluteDirectoryRefused`).
- Line 79 compares the file's directory with the file's root name. So
  `a/a.txt` is stored in the base directory and not in `a`
  (`Upload.SameNameDoesNotDescend`).
- `directory_exists` compares the last whitespace-separated token of each
  LIST line. A directory whose name contains a space is never recognised,
  and a blank LIST line raises `IndexError` (`Listing.DirectoryExistsMeaning`).

## Model

| member | source | states |
|---|---|---|
| ChangeSet.ModeQueryInjective | run-cmd.py:14-17 | the three change modes select three different git queries |
| ChangeSet.ShellLineRoundTrip | run-cmd.py:26-37 | the shell line `cd <path> && <query>` splits back into the directory and the query the mode or the explicit command selects, for a path without '&' |
| Listing.DirectoryExistsMeaning | run-cmd.py:59-65 | the answer is fixed by the first LIST line that is blank or names the directory: IndexError for a blank line, true for a naming line, false when there is none |
| Listing.DirectoryExistsWithoutBlanks | run-cmd.py:59-65 | over a listing without blank lines the answer is exactly "some line starts with d or D and its last word is the name" |
| Listing.NamesDirectoryOfLine | run-cmd.py:63 | a line `<marker> ... <word>` names a directory `name` iff its word equals the name and its marker starts with d or D |
| Listing.DirectoryExistsExtend | run-cmd.py:61-64 | lines after a directory has been found do not change the answer |
| Text.SplitJoin | run-cmd.py:137 | `Split` inverts `Join` for pieces without the separator |
| Text.TokensOfJoin | run-cmd.py:63 | `split()` gives back non-empty, space-free words joined with spaces |
| Remote.MkdCommand | run-cmd.py:50 | `mkd` appends one MKD; it creates the directory iff the name is creatable and nothing of that name exists, and is refused otherwise |
| Remote.CwdCommand | run-cmd.py:51 | `cwd` appends one CWD; it moves the cursor iff the name is "/", "", ".", ".." or a directory, and is refused otherwise |
| Remote.StorCommand | run-cmd.py:83 | `storbinary` appends one STOR; it stores the file iff the path is neither refused nor a directory |
| Remote.QuitCommand | run-cmd.py:103 | `quit` appends QUIT and closes the session, leaving the server and cursor alone |
| Remote.ListedMeaning | run-cmd.py:59-65 | on a server whose entries have plain names, `directory_exists` never raises and is true iff the name is a directory of the cursor, or a dot entry the server lists |
| Navigation.Chdir | run-cmd.py:46-51 | `chdir` only sends MKD and CWD, each MKD for a name absent when it is issued; on success the cursor has entered `dir` with one CWD, and "/" goes to the root without LIST or MKD |
| Navigation.ChdirCreatesOnlyAbsent | run-cmd.py:49-50 | MKD is sent iff `dir` is not "/" and `directory_exists` answers false, and then only as the first command |
| Navigation.ChdirEnters | run-cmd.py:49-51 | `chdir` ends with CWD `dir` unless LIST raised or MKD was refused; the only errors are IndexError, a refused MKD and a refused CWD |
| Navigation.Walk | run-cmd.py:56-57 | a walk sends only MKD and CWD, creates only names absent at their MKD, and on success sends one CWD per segment from the directory the previous ones led to |
| Navigation.WalkAppend | run-cmd.py:56-57 | walking `a + b` is walking `a`, then `b` from where `a` stopped, unless `a` raised |
| Navigation.ChdirNestedCreatesAbsent | run-cmd.py:53-57 | every MKD `chdir_nested` sends names something LIST did not show in that directory when the MKD was issued; on a server whose entries have plain names it names no directory that existed before, and no dot entry LIST shows |
| Navigation.ChdirNestedDescends | run-cmd.py:53-57 | the i-th CWD of a completed `chdir_nested` enters the i-th segment of `normpath(dir)` from the directory of the first i segments |
| Navigation.EmptyDirectoryIsDot | run-cmd.py:54-57 | `chdir_nested('')` walks the single segment "." |
| Navigation.AbsoluteDirectoryRefused | run-cmd.py:54-57 | an absolute directory makes `chdir_nested` send `MKD ` with an empty name, which is refused |
| PosixPath.Normpath | run-cmd.py:54 | `normpath` never returns "" and keeps a path absolute iff it was |
| PosixPath.NormpathOfNormal | run-cmd.py:54 | a path spelled from normal components (no empty, ".", or misplaced ".." component), with a leading '/' when absolute, is returned unchanged |
| PosixPath.NormpathIdempotent | run-cmd.py:54 | normalising a normalised path changes nothing |
| PosixPath.Splitext | run-cmd.py:69 | root and extension concatenate to the path; the extension is empty or a dot followed by no dot and no '/'; it is non-empty iff, after the last '/', some character other than '.' is followed by a '.' |
| PosixPath.BasenameOfStem | run-cmd.py:69-70 | the base name of the root, followed by the extension, is the base name of the path |
| PosixPath.Dirname | run-cmd.py:77 | the directory part is the path up to its last '/', with the trailing slashes removed unless that prefix is all slashes; it is empty iff the path has no '/' |
| PosixPath.DirnameBasename | run-cmd.py:69-77 | a path is its directory part, then only slashes, then its base name |
| Upload.RemoteNameRule | run-cmd.py:69-74 | without a rename the stored name is the file's base name; a rename with an extension is stored as given; one without gets the file's extension |
| Upload.RenameReplacesRoot | run-cmd.py:71-74 | `data/input.csv` renamed `report.csv` or `report` is stored as `report.csv` |
| Upload.DescendWalksRoute | run-cmd.py:75-80 | `chdir_nested(base_dir)` then `chdir_nested(path)` is one walk along the base segments followed by the directory segments |
| Upload.NormalisedTwice | run-cmd.py:77-78 | normalising the directory before `chdir_nested` normalises it again changes no segment |
| Upload.StoreAndReturn | run-cmd.py:83-84 | one STOR from the cursor, then CWD "/" and the root on success; a refused STOR leaves the cursor where it was |
| Upload.SendFile | run-cmd.py:67-85 | a file that cannot be opened raises FileNotFound before any command; a completed send ends at the root having stored exactly one file, named by the naming rule, in the directory its route leads to; no QUIT |
| Upload.SendFileDescends | run-cmd.py:75-84 | a completed send's CWDs walk the base directory, then the file's directory, then "/" |
| Upload.SendFileNoRestore | run-cmd.py:83-84 | a refused STOR raises in the directory the route led to, with the STOR as the last command |
| Upload.SameNameDoesNotDescend | run-cmd.py:77-80 | `a/a.txt` has root `a` and directory `a`, so its route is empty |
| Upload.SendEach | run-cmd.py:91-94 | the i-th STOR names the base name of the i-th file; a completed loop stores one file per path and ends at the root; no QUIT |
| Upload.SendEachAppend | run-cmd.py:91-94 | sending `a + b` sends `a`, then `b` from where `a` ended unless `a` raised, so the first failure stops the rest |
| Upload.SendFiles | run-cmd.py:87-96 | an empty list raises ZeroDivision with nothing sent; otherwise the files are sent in order |
| Upload.Uploads | run-cmd.py:121-127 | a failed connection reports the error; an opened session is quit exactly once, last, whatever the sends did; an empty list reports ZeroDivision |
| Upload.UploadsInOrder | run-cmd.py:121-127 | when no error is reported, the session stored one file per path, the i-th under the base name of the i-th path |
| Upload.DefaultBaseDirRefused | run-cmd.py:75-76 | with base directory '' on a server that does not list dot entries, when the first file can be opened, the upload sends `MKD .`, is refused, and quits |
| Cli.Apply | run-cmd.py:137-150 | an unknown option leaves the settings alone; a known one without '=' raises IndexError; a known one with '=' sets its setting to the text between the first and second '=' |
| Cli.FoldMeaning | run-cmd.py:136-150 | the loop raises IndexError iff some argument is a known option without '='; otherwise every setting is the last value assigned to it, or its previous value |
| Cli.OptionSpellings | run-cmd.py:143-148 | `--host`/`hostname`, `--user`/`username` and `--pass`/`password` set the same setting, with or without "--" |
| Cli.ValueStopsAtEquals | run-cmd.py:137-140 | in `--key=v=w` the value is `v` |
| Cli.MissingValueRaises | run-cmd.py:137-140 | `--path` without '=' raises IndexError |
| Cli.ScriptNameIgnored | run-cmd.py:136-139 | the script's own name in `argv[0]` is not an option |
| Cli.LateMissingValueRaises | run-cmd.py:136-140 | a malformed option raises even after well-formed ones |
| Cli.Script | run-cmd.py:151-152 | argument errors stop the run before anything else; otherwise the shell line is built from the path and command in mode ALL, and an opened session is quit exactly once |
| Cli.EmptyListingFails | run-cmd.py:151-152 | an empty git output still names one file, the empty path, which cannot be opened: the run fails with FileNotFound and sends only QUIT |

## Left out

- `ftplib` and the server are not part of this model. The server is assumed:
  - LIST answers one Unix `ls -l` style line per entry of the cursor's
    directory, plus "." and ".." when the `listsDots` flag says so;
  - MKD is refused for "", ".", "..", names with '/', and existing names;
  - CWD accepts "/", "", ".", ".." and existing directories;
  - STOR is refused for the paths in `refused` and onto directories;
  - QUIT always succeeds.
- LIST is not recorded in the trace; only MKD, CWD, STOR and QUIT are.
- Remote.CwdCommand: the trace records the name passed to `cwd`, not the wire command. `ftplib` sends `CDUP` for `..` and `CWD .` for an empty name.
- The login directory is taken to be the root.
- `open_ftp` is a parameter: `Some(server)` when it connects, `None` when it raises.
- Upload.Uploads: assumes a non-empty host and user name, so that `open_ftp` yields a logged-in session. The script's defaults are `ftp_hostname = ""` and `ftp_username = ""` (run-cmd.py lines 132-133), and `ftplib.FTP` neither connects nor logs in for an empty host, nor logs in for an empty user.
  - With an empty host, the first LIST raises `AttributeError`, because the session has no socket. The `quit_ftp` in `finally` raises again, so no QUIT is sent.
  - With a host but an empty user, the session is connected but not logged in, and a real server refuses LIST, which the modelled LIST never does.
- Cli.Script: makes the same assumption of a logged-in session, since it passes its `conn` to `uploads`.
- Running the shell line (`subprocess.getstatusoutput`) is left out; its output is a parameter of `Cli.Script`.
- Opening local files is a set of openable paths; file contents are not modelled.
- `progress_bar` and `elapsed_time` are left out (floating point, terminal output and the clock). The one exception is the ZeroDivisionError for an empty list.
- Printing and the `debug` flag are left out; they do not change what is sent.
- PosixPath.Normpath: does not model the POSIX rule that keeps exactly two leading slashes (`//a` stays `//a`); any absolute path keeps one.
- `get_changed_files`'s `mode` parameter is always ALL when the script runs; the other modes are modelled only by `ChangeSet.ModeQuery`.

=== FILE: changeset.dfy ===
/** Selecting the git query that lists the changed files, and the shell line
    that runs it in the working copy (`ChangeMode`, `ChangeModeCmd`,
    `get_changed_files`).  Running the line is left to the caller: its output
    is an input of the model. */
module ChangeSet {
  import opened Outcome

  datatype ChangeMode = All | NewOnly | ChangeOnly

  /** `ChangeModeCmd`: the query each mode runs, spelled as the script spells
      it (the last option is an abbreviation git accepts). */
  function ModeQuery(mode: ChangeMode): string {
    match mode
    case All => Modified + Separator + Untracked
    case NewOnly => Untracked
    case ChangeOnly => Modified
  }

  const Modified: string := "git ls-files --modified"
  const Untracked: string := "git ls-files --others --exclude-standar"

  /** The query `get_changed_files` runs: an explicit `cmd` verbatim,
      otherwise the one for the mode. */
  function Query(cmd: Option<string>, mode: ChangeMode): (q: string)
    ensures cmd.Some? ==> q == cmd.value
    ensures cmd.None? ==> q == ModeQuery(mode)
  {
    match cmd
    case Some(c) => c
    case None => ModeQuery(mode)
  }

  const Separator: string := " && "

  /** The line handed to the shell: change into `path`, then run the query. */
  function ShellLine(path: string, cmd: Option<string>, mode: ChangeMode): string {
    "cd " + path + Separator + Query(cmd, mode)
  }

  /** Reads a shell line back: the directory up to the first " && " and the
      command after it. */
  function ParseShellLine(line: string): (r: Option<(string, string)>)
    ensures r.Some? ==> line == "cd " + r.value.0 + Separator + r.value.1
  {
    if |line| >= 3 && line[..3] == "cd " then
      var rest := line[3..];
      var i := FindSeparator(rest);
      if i < 0 then None
      else
        Around(line, 3, 3 + i, 3 + i + 4);
        Some((rest[..i], rest[i + 4..]))
    else None
  }

  lemma Around(s: string, i: nat, j: nat, k: nat)
    requires i <= j <= k <= |s|
    ensures s == s[..i] + s[i..][..j - i] + s[j..k] + s[i..][k - i..]
  {
  }

  predicate SeparatorAt(s: string, i: int) {
    0 <= i && i + 4 <= |s| && s[i..i + 4] == Separator
  }

  /** Index of the first " && " in `s`, or -1. */
  function FindSeparator(s: string): (i: int)
    ensures -1 <= i
    ensures i >= 0 ==> SeparatorAt(s, i)
    ensures forall j :: 0 <= j && (i < 0 || j < i) ==> !SeparatorAt(s, j)
    decreases |s|
  {
    if |s| < 4 then -1
    else if s[..4] == Separator then 0
    else
      var r := FindSeparator(s[1..]);
      assert forall j :: 1 <= j ==> (SeparatorAt(s, j) <==> SeparatorAt(s[1..], j - 1)) by {
        forall j | 1 <= j ensures SeparatorAt(s, j) <==> SeparatorAt(s[1..], j - 1) {
          if j + 4 <= |s| { assert s[j..j + 4] == s[1..][j - 1..j + 3]; }
        }
      }
      if r < 0 then -1 else r + 1
  }

  /** Different modes run different queries. */
  lemma ModeQueryInjective(m1: ChangeMode, m2: ChangeMode)
    ensures ModeQuery(m1) == ModeQuery(m2) <==> m1 == m2
  {
    if m1 != m2 {
      assert |ModeQuery(m1)| != |ModeQuery(m2)|;
    }
  }

  /** A shell line splits back into the directory and the query, provided the
      directory holds no '&'. */
  lemma ShellLineRoundTrip(path: string, cmd: Option<string>, mode: ChangeMode)
    requires '&' !in path
    ensures ParseShellLine(ShellLine(path, cmd, mode)) == Some((path, Query(cmd, mode)))
  {
    var q := Query(cmd, mode);
    var line := ShellLine(path, cmd, mode);
    var rest := path + Separator + q;
    assert line[..3] == "cd ";
    assert line[3..] == rest;
    assert FindSeparator(line[3..]) == |path| by { FirstSeparatorAfter(path, q); }
    assert rest[..|path|] == path;
    assert rest[|path| + 4..] == q;
  }

  /** In "path && q" with no '&' in `path`, the first " && " is the one after `path`. */
  lemma FirstSeparatorAfter(path: string, q: string)
    requires '&' !in path
    ensures FindSeparator(path + Separator + q) == |path|
  {
    var rest := path + Separator + q;
    assert SeparatorAt(rest, |path|);
    forall j | 0 <= j < |path| ensures !SeparatorAt(rest, j) {
      if j + 4 <= |rest| {
        assert rest[j..j + 4][1] == rest[j + 1];
        if j + 1 < |path| { assert rest[j + 1] == path[j + 1]; } else { assert rest[j + 1] == ' '; }
      }
    }
  }
}

=== FILE: cli.dfy ===
/** The command line of the script: the `key=value` arguments folded into a
    configuration, and the run they drive (the shell line, then the upload
    of the files it lists). */
module Cli {
  import opened Outcome
  import opened Text
  import opened ChangeSet
  import opened Remote
  import opened Upload

  /** The settings the script reads from its arguments. */
  datatype Config = Config(path: string, cmd: Option<string>, host: string, user: string,
                           password: string, basedir: string)

  /** The values the script starts from. */
  const Defaults: Config := Config(".", None, "", "", "", "")

  /** The setting an option name assigns. */
  datatype Setting = PathSetting | CmdSetting | HostSetting | UserSetting | PasswordSetting | BaseDirSetting

  /** The option names the script recognises, with their aliases. */
  function SettingOf(key: string): Option<Setting> {
    if key == "path" then Some(PathSetting)
    else if key == "cmd" then Some(CmdSetting)
    else if key == "host" || key == "hostname" then Some(HostSetting)
    else if key == "user" || key == "username" then Some(UserSetting)
    else if key == "pass" || key == "password" then Some(PasswordSetting)
    else if key == "basedir" then Some(BaseDirSetting)
    else None
  }

  /** The option name of an argument: what precedes its first '=', without
      one leading "--". */
  function Key(arg: string): string {
    RemovePrefix(Split(arg, '=')[0], "--")
  }

  /** The value of an argument: what lies between its first and second '='. */
  function Value(arg: string): string
    requires '=' in arg
  {
    SplitHasValue(arg);
    Split(arg, '=')[1]
  }

  function Assign(c: Config, setting: Setting, v: string): Config {
    match setting
    case PathSetting => c.(path := v)
    case CmdSetting => c.(cmd := Some(v))
    case HostSetting => c.(host := v)
    case UserSetting => c.(user := v)
    case PasswordSetting => c.(password := v)
    case BaseDirSetting => c.(basedir := v)
  }

  /** One turn of the argument loop: an unrecognised option is ignored; a
      recognised one without '=' raises IndexError on `parts[1]`. */
  function Apply(c: Config, arg: string): (r: Result<Config>)
    ensures SettingOf(Key(arg)).None? ==> r == Ok(c)
    ensures SettingOf(Key(arg)).Some? && '=' !in arg ==> r == Err(IndexError)
    ensures SettingOf(Key(arg)).Some? && '=' in arg ==> r == Ok(Assign(c, SettingOf(Key(arg)).value, Value(arg)))
  {
    var parts := Split(arg, '=');
    var opt := RemovePrefix(parts[0], "--");
    SplitHasValue(arg);
    match SettingOf(opt)
    case None => Ok(c)
    case Some(setting) => if |parts| < 2 then Err(IndexError) else Ok(Assign(c, setting, parts[1]))
  }

  /** A string splits into at least two pieces exactly when it holds the
      separator. */
  lemma SplitHasValue(arg: string)
    ensures '=' in arg <==> |Split(arg, '=')| >= 2
  {
    var parts := Split(arg, '=');
    if |parts| == 1 {
      assert Join(parts, '=') == parts[0];
    } else {
      assert Join(parts, '=') == parts[0] + ['='] + Join(parts[1..], '=');
      assert arg[|parts[0]|] == '=';
    }
  }

  /** The argument loop: every argument in order, the first IndexError ending it. */
  function Fold(c: Config, args: seq<string>): Result<Config>
    decreases |args|
  {
    if args == [] then Ok(c)
    else
      match Apply(c, args[0])
      case Err(e) => Err(e)
      case Ok(next) => Fold(next, args[1..])
  }

  /** The configuration the script reads from `argv`; `argv[0]` is the
      script's own name and goes through the loop like any argument. */
  function ParseArgs(argv: seq<string>): Result<Config> {
    Fold(Defaults, argv)
  }

  // ---------------------------------------------------------------------
  // An independent reading of the loop: each setting takes the value of the
  // last argument that assigns it, and any recognised option without '='
  // makes the whole loop raise.

  /** An argument the loop raises on. */
  predicate Malformed(arg: string) {
    SettingOf(Key(arg)).Some? && '=' !in arg
  }

  /** The value of the last well-formed argument that assigns `setting`. */
  function LastValue(args: seq<string>, setting: Setting): (v: Option<string>)
    ensures v.Some? ==> exists i :: 0 <= i < |args| && '=' in args[i] && SettingOf(Key(args[i])) == Some(setting)
    decreases |args|
  {
    if args == [] then None
    else
      var a := args[|args| - 1];
      if '=' in a && SettingOf(Key(a)) == Some(setting) then Some(Value(a))
      else
        var v := LastValue(args[..|args| - 1], setting);
        assert v.Some? ==> exists i :: 0 <= i < |args| && '=' in args[i] && SettingOf(Key(args[i])) == Some(setting) by {
          if v.Some? {
            var i :| 0 <= i < |args| - 1 && '=' in args[..|args| - 1][i] && SettingOf(Key(args[..|args| - 1][i])) == Some(setting);
            assert args[..|args| - 1][i] == args[i];
          }
        }
        v
  }

  function Or(v: Option<string>, fallback: string): string {
    if v.Some? then v.value else fallback
  }

  /** Every setting of `c` overridden by its last assignment in `args`. */
  function Expected(c: Config, args: seq<string>): Config {
    Config(
      Or(LastValue(args, PathSetting), c.path),
      if LastValue(args, CmdSetting).Some? then LastValue(args, CmdSetting) else c.cmd,
      Or(LastValue(args, HostSetting), c.host),
      Or(LastValue(args, UserSetting), c.user),
      Or(LastValue(args, PasswordSetting), c.password),
      Or(LastValue(args, BaseDirSetting), c.basedir))
  }

  /** Folding one more argument continues from where the fold stood. */
  lemma {:induction false} FoldSnoc(c: Config, args: seq<string>, a: string)
    ensures Fold(c, args + [a]) == match Fold(c, args) case Err(e) => Err(e) case Ok(d) => Apply(d, a)
    decreases |args|
  {
    if args == [] {
      assert [a][1..] == [];
    } else {
      assert (args + [a])[0] == args[0];
      assert (args + [a])[1..] == args[1..] + [a];
      match Apply(c, args[0])
      case Err(_) =>
      case Ok(next) => FoldSnoc(next, args[1..], a);
    }
  }

  /** The loop raises IndexError exactly when some argument is malformed;
      otherwise each setting holds the value of its last assignment. */
  lemma {:induction false} FoldMeaning(c: Config, args: seq<string>)
    ensures Fold(c, args) ==
      if exists i :: 0 <= i < |args| && Malformed(args[i]) then Err(IndexError) else Ok(Expected(c, args))
    decreases |args|
  {
    if args != [] {
      var init := args[..|args| - 1];
      var a := args[|args| - 1];
      assert args == init + [a];
      FoldMeaning(c, init);
      FoldSnoc(c, init, a);
      assert forall i :: 0 <= i < |init| ==> init[i] == args[i];
      if exists i :: 0 <= i < |init| && Malformed(init[i]) {
        var i :| 0 <= i < |init| && Malformed(init[i]);
        assert Malformed(args[i]);
      } else if !Malformed(a) {
        ExpectedStep(c, init, a);
      }
    }
  }

  /** A well-formed last argument assigns its own setting and no other. */
  lemma ExpectedStep(c: Config, init: seq<string>, a: string)
    requires !Malformed(a)
    ensures Apply(Expected(c, init), a) == Ok(Expected(c, init + [a]))
  {
    LastValueSnoc(init, a, PathSetting);
    LastValueSnoc(init, a, CmdSetting);
    LastValueSnoc(init, a, HostSetting);
    LastValueSnoc(init, a, UserSetting);
    LastValueSnoc(init, a, PasswordSetting);
    LastValueSnoc(init, a, BaseDirSetting);
  }

  lemma LastValueSnoc(init: seq<string>, a: string, setting: Setting)
    ensures LastValue(init + [a], setting) ==
      if '=' in a && SettingOf(Key(a)) == Some(setting) then Some(Value(a)) else LastValue(init, setting)
  {
    var args := init + [a];
    assert args[..|args| - 1] == init;
    assert args[|args| - 1] == a;
  }

  // ---------------------------------------------------------------------
  // What the loop accepts.

  /** The option names and aliases, one by one. */
  lemma OptionTable()
    ensures SettingOf("path") == Some(PathSetting) && SettingOf("cmd") == Some(CmdSetting)
    ensures SettingOf("host") == SettingOf("hostname") == Some(HostSetting)
    ensures SettingOf("user") == SettingOf("username") == Some(UserSetting)
    ensures SettingOf("pass") == SettingOf("password") == Some(PasswordSetting)
    ensures SettingOf("basedir") == Some(BaseDirSetting)
  {
  }

  /** A recognised option name holds no '=' and does not start with "--". */
  lemma RecognisedShape(key: string)
    requires SettingOf(key).Some?
    ensures '=' !in key && |key| > 0 && key[0] != '-'
  {
  }

  /** An option followed by '=' and a value without '=' splits into the two. */
  lemma SplitAssignment(head: string, v: string)
    requires '=' !in head && '=' !in v
    ensures Split(head + "=" + v, '=') == [head, v]
  {
    assert head + "=" + v == head + ['='] + v;
    SplitAtFirst(head, '=', v);
  }

  /** `key=v` and `--key=v` assign `v` to the key's setting. */
  lemma Assignment(c: Config, head: string, key: string, v: string)
    requires head == key || head == "--" + key
    requires SettingOf(key).Some? && '=' !in v
    ensures Apply(c, head + "=" + v) == Ok(Assign(c, SettingOf(key).value, v))
  {
    var arg := head + "=" + v;
    RecognisedShape(key);
    assert '=' !in head by {
      if head != key { assert forall j :: 2 <= j < |head| ==> head[j] == key[j - 2]; }
    }
    SplitAssignment(head, v);
    assert arg[|head|] == '=';
    if head == key {
      assert !("--" <= key) by { assert key[0] != "--"[0]; }
    } else {
      assert head[..2] == "--" && head[2..] == key;
    }
    assert Key(arg) == key;
  }

  /** With and without the leading "--", and under either alias, an option
      sets the same value. */
  lemma OptionSpellings(c: Config, v: string)
    requires '=' !in v
    ensures Apply(c, "--host=" + v) == Apply(c, "hostname=" + v) == Ok(c.(host := v))
    ensures Apply(c, "--user=" + v) == Apply(c, "username=" + v) == Ok(c.(user := v))
    ensures Apply(c, "--pass=" + v) == Apply(c, "password=" + v) == Ok(c.(password := v))
  {
    HostSpellings(c, v);
    UserSpellings(c, v);
    PasswordSpellings(c, v);
  }

  lemma HostSpellings(c: Config, v: string)
    requires '=' !in v
    ensures Apply(c, "--host=" + v) == Apply(c, "hostname=" + v) == Ok(c.(host := v))
  {
    OptionTable();
    assert "--host=" + v == "--" + "host" + "=" + v;
    assert "hostname=" + v == "hostname" + "=" + v;
    Assignment(c, "--host", "host", v);
    Assignment(c, "hostname", "hostname", v);
  }

  lemma UserSpellings(c: Config, v: string)
    requires '=' !in v
    ensures Apply(c, "--user=" + v) == Apply(c, "username=" + v) == Ok(c.(user := v))
  {
    OptionTable();
    assert "--user=" + v == "--" + "user" + "=" + v;
    assert "username=" + v == "username" + "=" + v;
    Assignment(c, "--user", "user", v);
    Assignment(c, "username", "username", v);
  }

  lemma PasswordSpellings(c: Config, v: string)
    requires '=' !in v
    ensures Apply(c, "--pass=" + v) == Apply(c, "password=" + v) == Ok(c.(password := v))
  {
    OptionTable();
    assert "--pass=" + v == "--" + "pass" + "=" + v;
    assert "password=" + v == "password" + "=" + v;
    Assignment(c, "--pass", "pass", v);
    Assignment(c, "password", "password", v);
  }

  /** The value stops at the second '=': what follows it is dropped. */
  lemma ValueStopsAtEquals(c: Config, key: string, v: string, w: string)
    requires SettingOf(key).Some? && '=' !in v
    ensures Apply(c, "--" + key + "=" + v + "=" + w) == Ok(Assign(c, SettingOf(key).value, v))
  {
    var head := "--" + key;
    var arg := head + "=" + v + "=" + w;
    RecognisedShape(key);
    assert '=' !in head by { assert forall j :: 2 <= j < |head| ==> head[j] == key[j - 2]; }
    SplitThree(head, v, w);
    assert Key(arg) == key by {
      assert Split(arg, '=')[0] == head;
      assert head[..2] == "--" && head[2..] == key;
    }
    assert Value(arg) == v;
  }

  /** Splitting `head=v=w` gives `head`, `v`, then the pieces of `w`. */
  lemma SplitThree(head: string, v: string, w: string)
    requires '=' !in head && '=' !in v
    ensures Split(head + "=" + v + "=" + w, '=') == [head, v] + Split(w, '=')
    ensures '=' in head + "=" + v + "=" + w
  {
    var t := v + "=" + w;
    assert head + "=" + v + "=" + w == head + ['='] + t;
    assert t == v + ['='] + w;
    SplitAtFirst(head, '=', t);
    SplitAtFirst(v, '=', w);
    assert (head + ['='] + t)[|head|] == '=';
  }

  /** A recognised option with no '=' raises. */
  lemma MissingValueRaises(c: Config)
    ensures Malformed("--path")
    ensures Apply(c, "--path") == Err(IndexError)
  {
    OptionTable();
    assert Split("--path", '=') == ["--path"];
    assert "--path"[..2] == "--" && "--path"[2..] == "path";
  }

  /** The script's own name in `argv[0]` is not an option. */
  lemma ScriptNameIgnored(c: Config)
    ensures !Malformed("run-cmd.py")
    ensures Apply(c, "run-cmd.py") == Ok(c)
  {
    var name := "run-cmd.py";
    assert '=' !in name;
    assert Split(name, '=') == [name];
    assert !("--" <= name) by { assert name[0] != '-'; }
    assert Key(name) == name;
    assert |name| == 10;
    assert SettingOf(name).None?;
  }

  /** A malformed option raises even after well-formed ones. */
  lemma LateMissingValueRaises(c: Config)
    ensures ParseArgs(["run-cmd.py", "--host=h", "--path"]) == Err(IndexError)
  {
    var args := ["run-cmd.py", "--host=h", "--path"];
    MissingValueRaises(c);
    assert Malformed(args[2]);
    FoldMeaning(Defaults, args);
  }

  // ---------------------------------------------------------------------
  // The run.

  /** What the script does: the shell line it would run, and the report of
      the upload; nothing runs when the arguments raise. */
  datatype Run = Run(line: Option<string>, report: Report)

  /** The script's top-level block: `output` is what `subprocess.getstatusoutput`
      returns for the shell line, the combined output with one trailing
      newline removed (git's "a\n" arrives as "a"); `conn` is what connecting
      to the configured host gives, `local` the files that can be opened. */
  function Script(argv: seq<string>, output: string, conn: Option<Server>, local: set<string>): (r: Run)
    ensures ParseArgs(argv).Err? ==> r == Run(None, Report(None, Some(ParseArgs(argv).error)))
    ensures ParseArgs(argv).Ok? ==> r.line == Some(ShellLine(ParseArgs(argv).value.path, ParseArgs(argv).value.cmd, All))
    ensures ParseArgs(argv).Ok? && conn.Some? ==>
      r.report.session.Some? && QuitCount(r.report.session.value.trace) == 1
  {
    match ParseArgs(argv)
    case Err(e) => Run(None, Report(None, Some(e)))
    case Ok(cfg) =>
      Run(Some(ShellLine(cfg.path, cfg.cmd, All)), Uploads(conn, local, Some(cfg.basedir), Split(output, '\n')))
  }

  /** An empty listing still names one file, the empty path, which cannot be
      opened: after connecting, the run fails without sending a command. */
  lemma EmptyListingFails(argv: seq<string>, srv: Server, local: set<string>)
    requires ParseArgs(argv).Ok? && "" !in local
    ensures Script(argv, "", Some(srv), local).report.error == Some(FileNotFound(""))
    ensures Script(argv, "", Some(srv), local).report.session.value.trace == [Quit]
  {
    assert Split("", '\n') == [""];
    var s := Fresh(srv);
    assert SendEach(s, local, [""], Some(ParseArgs(argv).value.basedir)) == Raised(s, FileNotFound(""));
  }
}

=== FILE: listing.dfy ===
/** `directory_exists`: deciding from the lines of a LIST reply whether the
    current remote directory has a sub-directory of a given name. */
module Listing {
  import opened Outcome
  import opened Text

  /** `f.upper().startswith('D')`: the line's first character is 'd' or 'D'. */
  predicate MarksDirectory(line: string) {
    |line| > 0 && (line[0] == 'd' || line[0] == 'D')
  }

  /** The last whitespace-separated token of a line that has one. */
  function LastToken(line: string): string
    requires !Blank(line)
  {
    var ws := Tokens(line);
    ws[|ws| - 1]
  }

  /** A directory line whose last token is exactly `name`. */
  predicate NamesDirectory(line: string, name: string) {
    !Blank(line) && LastToken(line) == name && MarksDirectory(line)
  }

  /** `directory_exists(session, name)` over the LIST lines, in order: true at
      the first line naming the directory, an IndexError at a blank line met
      before any such line (its token list is empty), false otherwise. */
  function DirectoryExists(lines: seq<string>, name: string): (r: Result<bool>)
    ensures r.Err? ==> r.error == IndexError
    decreases |lines|
  {
    if lines == [] then Ok(false)
    else
      var ws := Tokens(lines[0]);
      if ws == [] then Err(IndexError)
      else if ws[|ws| - 1] == name && MarksDirectory(lines[0]) then Ok(true)
      else DirectoryExists(lines[1..], name)
  }

  /** Index of the first line that is blank or names the directory, or the
      number of lines when there is none. */
  function Decisive(lines: seq<string>, name: string): (k: nat)
    ensures k <= |lines|
    ensures forall j :: 0 <= j < k ==> !Blank(lines[j]) && !NamesDirectory(lines[j], name)
    ensures k < |lines| ==> Blank(lines[k]) || NamesDirectory(lines[k], name)
    decreases |lines|
  {
    if lines == [] then 0
    else if Blank(lines[0]) || NamesDirectory(lines[0], name) then 0
    else
      var k := Decisive(lines[1..], name);
      assert forall j :: 1 <= j < k + 1 ==> lines[j] == lines[1..][j - 1];
      k + 1
  }

  /** The answer is decided by the first line that is blank or names the
      directory: an error if it is blank, true if it names the directory,
      false if there is no such line. */
  lemma {:induction false} DirectoryExistsMeaning(lines: seq<string>, name: string)
    ensures var k := Decisive(lines, name);
      DirectoryExists(lines, name) ==
        if k == |lines| then Ok(false) else if Blank(lines[k]) then Err(IndexError) else Ok(true)
    decreases |lines|
  {
    if lines != [] {
      var head := lines[0];
      if !Blank(head) && !NamesDirectory(head, name) {
        DirectoryExistsMeaning(lines[1..], name);
      }
    }
  }

  predicate NoBlankLine(lines: seq<string>) {
    forall i :: 0 <= i < |lines| ==> !Blank(lines[i])
  }

  /** Some line names the directory `name`. */
  predicate AnyNames(lines: seq<string>, name: string) {
    exists i :: 0 <= i < |lines| && NamesDirectory(lines[i], name)
  }

  /** Over a listing without blank lines the predicate is exactly "some line
      is a directory line whose last token is the name". */
  lemma DirectoryExistsWithoutBlanks(lines: seq<string>, name: string)
    requires NoBlankLine(lines)
    ensures DirectoryExists(lines, name) == Ok(AnyNames(lines, name))
  {
    DirectoryExistsMeaning(lines, name);
  }

  lemma ConcatLines(a: seq<string>, b: seq<string>, name: string)
    ensures NoBlankLine(a + b) <==> NoBlankLine(a) && NoBlankLine(b)
    ensures AnyNames(a + b, name) <==> AnyNames(a, name) || AnyNames(b, name)
  {
    var c := a + b;
    assert forall i :: 0 <= i < |a| ==> c[i] == a[i];
    assert forall i :: 0 <= i < |b| ==> c[|a| + i] == b[i];
    if AnyNames(c, name) {
      var i :| 0 <= i < |c| && NamesDirectory(c[i], name);
      if i >= |a| { assert c[i] == b[i - |a|]; }
    }
    if NoBlankLine(a) && NoBlankLine(b) {
      forall i | 0 <= i < |c| ensures !Blank(c[i]) {
        if i >= |a| { assert c[i] == b[i - |a|]; }
      }
    }
  }

  /** Lines added after a listing do not withdraw a directory it already shows. */
  lemma DirectoryExistsExtend(lines: seq<string>, more: seq<string>, name: string)
    requires DirectoryExists(lines, name) == Ok(true)
    ensures DirectoryExists(lines + more, name) == Ok(true)
  {
    DirectoryExistsMeaning(lines, name);
    DirectoryExistsMeaning(lines + more, name);
    var k := Decisive(lines, name);
    var k' := Decisive(lines + more, name);
    assert forall j :: 0 <= j <= k ==> (lines + more)[j] == lines[j];
    assert k' == k;
  }

  /** A line of the form "<marker> ... <word>" names `name` exactly when it is
      a directory line and the word is `name`: a longer or shorter name never
      matches. */
  lemma NamesDirectoryOfLine(prefix: string, word: string, name: string)
    requires |prefix| > 0 && !IsSpace(prefix[0])
    requires |word| > 0 && NoSpace(word)
    ensures NamesDirectory(prefix + [' '] + word, name) <==> word == name && MarksDirectory(prefix)
  {
    var line := prefix + [' '] + word;
    TokensAppendWord(prefix, word);
    assert !Blank(line) by { assert line[0] == prefix[0]; }
    assert line[0] == prefix[0];
  }
}

=== FILE: navigation.dfy ===
/** `chdir` and `chdir_nested`: moving the remote cursor, creating each
    directory that LIST does not show on the way. */
module Navigation {
  import opened Outcome
  import opened Text
  import opened PosixPath
  import opened Listing
  import opened Remote

  /** `chdir` creates `dir` first exactly when it is not the root and
      `directory_exists` answers false for it in the current directory. */
  predicate Absent(s: Session, dir: string) {
    dir != "/" && DirectoryExists(ListLines(s.server, s.cwd), dir) == Ok(false)
  }

  /** `chdir(session, dir)`: unless `dir` is the root, list the current
      directory, create `dir` when the listing does not show it, then change
      into `dir`.  A blank LIST line raises, as `f.split()[-1]` does. */
  function Chdir(s: Session, dir: string): (r: Step)
    ensures Extends(s, r.s) && NavOnly(Issued(s, r.s))
    ensures MkdAtIssue(s.server, Issued(s, r.s))
    ensures r.Done? ==> r.s.server.entries == s.server.entries + Created(Issued(s, r.s))
    ensures dir == "/" ==> r == Done(s.(trace := s.trace + [Cwd(s.cwd, "/")], cwd := []))
    ensures r.Done? ==> r.s.cwd == Enter(s.cwd, dir) && Cwds(Issued(s, r.s)) == [Cwd(s.cwd, dir)]
    ensures r.Raised? ==> r.s.cwd == s.cwd && Cwds(Issued(s, r.s)) <= [Cwd(s.cwd, dir)]
  {
    if dir == "/" then
      CwdStep(s, dir);
      CwdCommand(s, dir)
    else
      var listed := DirectoryExists(ListLines(s.server, s.cwd), dir);
      if listed.Err? then Raised(s, listed.error)
      else if listed.value then
        CwdStep(s, dir);
        CwdCommand(s, dir)
      else
        var r := CreateAndEnter(s, dir);
        CreateStep(s, dir, r);
        r
  }

  /** The CWD sent on its own keeps `chdir`'s guarantees. */
  lemma CwdStep(s: Session, dir: string)
    ensures var r := CwdCommand(s, dir);
      && Extends(s, r.s) && NavOnly(Issued(s, r.s)) && MkdAtIssue(s.server, Issued(s, r.s))
      && Cwds(Issued(s, r.s)) == [Cwd(s.cwd, dir)]
      && r.s.server.entries == s.server.entries + Created(Issued(s, r.s))
  {
    var r := CwdCommand(s, dir);
    assert Issued(s, r.s) == [Cwd(s.cwd, dir)];
    CwdsOne(Cwd(s.cwd, dir));
    CreatedOne(Cwd(s.cwd, dir));
  }

  /** MKD then CWD keeps `chdir`'s guarantees. */
  lemma CreateStep(s: Session, dir: string, r: Step)
    requires Absent(s, dir) && r == CreateAndEnter(s, dir)
    ensures NavOnly(Issued(s, r.s)) && MkdAtIssue(s.server, Issued(s, r.s))
    ensures Cwds(Issued(s, r.s)) <= [Cwd(s.cwd, dir)]
    ensures r.Done? ==> Cwds(Issued(s, r.s)) == [Cwd(s.cwd, dir)]
    ensures r.Done? ==> r.s.server.entries == s.server.entries + Created(Issued(s, r.s))
  {
    var ops := Issued(s, r.s);
    var m := Mkd(s.cwd, dir);
    var c := Cwd(s.cwd, dir);
    MkdThenCwd(m, c);
    assert Before(s.server, ops, 0) == s.server by {
      assert ops[..0] == [];
    }
  }

  lemma MkdThenCwd(m: Op, c: Op)
    requires m.Mkd? && c.Cwd?
    ensures Cwds([m]) == [] && Cwds([m, c]) == [c]
    ensures Created([m]) == [Entry(m.at + [m.name], true)] && Created([m, c]) == Created([m])
  {
    CwdsOne(m);
    CwdsAppend([m], [c]);
    CwdsOne(c);
    CreatedOne(m);
    CreatedAppend([m], [c]);
    CreatedOne(c);
    assert [m] + [c] == [m, c];
  }

  /** The `mkd` then `cwd` branch of `chdir`, for a name LIST does not show. */
  function CreateAndEnter(s: Session, dir: string): (r: Step)
    requires Absent(s, dir)
    ensures Extends(s, r.s)
    ensures Issued(s, r.s) == [Mkd(s.cwd, dir)] || Issued(s, r.s) == [Mkd(s.cwd, dir), Cwd(s.cwd, dir)]
    ensures r.Done? ==> r.s.cwd == Enter(s.cwd, dir) && Issued(s, r.s) == [Mkd(s.cwd, dir), Cwd(s.cwd, dir)]
    ensures r.Raised? ==> r.s.cwd == s.cwd
    ensures r.Raised? ==>
      || (Issued(s, r.s) == [Mkd(s.cwd, dir)] && r.error == FtpRefused("MKD " + dir))
      || (Issued(s, r.s) == [Mkd(s.cwd, dir), Cwd(s.cwd, dir)] && r.error == FtpRefused("CWD " + dir))
    ensures r.Done? && dir !in {"/", "", ".", ".."} ==> IsDir(r.s.server, s.cwd + [dir])
  {
    match MkdCommand(s, dir)
    case Raised(t, e) => Raised(t, e)
    case Done(t) => CwdCommand(t, dir)
  }

  lemma CwdsOne(op: Op)
    ensures Cwds([op]) == if op.Cwd? then [op] else []
  {
    assert [op][1..] == [];
  }

  /** `chdir` sends MKD exactly when `dir` is not the root and LIST does not
      show it, as its first command, and never another. */
  lemma ChdirCreatesOnlyAbsent(s: Session, dir: string)
    ensures var ops := Issued(s, Chdir(s, dir).s);
      && (Absent(s, dir) <==> |ops| > 0 && ops[0] == Mkd(s.cwd, dir))
      && forall i :: 0 < i < |ops| ==> !ops[i].Mkd?
  {
    if dir != "/" {
      var listed := DirectoryExists(ListLines(s.server, s.cwd), dir);
      if listed == Ok(false) {
        var r := CreateAndEnter(s, dir);
        assert Chdir(s, dir) == r;
      }
    }
  }

  /** `chdir` ends with CWD `dir` unless LIST raised or MKD was refused; in
      those two cases nothing or only the MKD was sent. */
  lemma ChdirEnters(s: Session, dir: string)
    ensures var r := Chdir(s, dir);
      var ops := Issued(s, r.s);
      && (r.Done? || r.error == FtpRefused("CWD " + dir) ==> |ops| > 0 && ops[|ops| - 1] == Cwd(s.cwd, dir))
      && (r.Raised? ==> r.error in {IndexError, FtpRefused("MKD " + dir), FtpRefused("CWD " + dir)})
      && (r.Raised? && r.error == IndexError ==> ops == [])
      && (r.Raised? && r.error == FtpRefused("MKD " + dir) ==> ops == [Mkd(s.cwd, dir)])
  {
    assert ("MKD " + dir)[0] != ("CWD " + dir)[0];
    if dir != "/" {
      var listed := DirectoryExists(ListLines(s.server, s.cwd), dir);
      if listed == Ok(false) {
        var r := CreateAndEnter(s, dir);
        assert Chdir(s, dir) == r;
      } else if listed == Ok(true) {
        assert Chdir(s, dir) == CwdCommand(s, dir);
      }
    }
  }

  /** The CWD commands that walking `segs` from `cwd` sends: one per
      segment, each from the directory the previous ones led to. */
  function Descent(cwd: Path, segs: seq<string>): (ops: seq<Op>)
    ensures |ops| == |segs|
    ensures forall i :: 0 <= i < |segs| ==> ops[i].Cwd? && ops[i].name == segs[i]
    decreases |segs|
  {
    if segs == [] then [] else [Cwd(cwd, segs[0])] + Descent(Enter(cwd, segs[0]), segs[1..])
  }

  lemma {:induction false} DescentAppend(cwd: Path, a: seq<string>, b: seq<string>)
    ensures Descent(cwd, a + b) == Descent(cwd, a) + Descent(EnterAll(cwd, a), b)
    decreases |a|
  {
    if a == [] {
      assert a + b == b;
    } else {
      assert (a + b)[0] == a[0];
      assert (a + b)[1..] == a[1..] + b;
      DescentAppend(Enter(cwd, a[0]), a[1..], b);
    }
  }

  /** Segment `i` is entered from where the segments before it led. */
  lemma {:induction false} DescentFrom(cwd: Path, segs: seq<string>, i: nat)
    requires i < |segs|
    ensures Descent(cwd, segs)[i] == Cwd(EnterAll(cwd, segs[..i]), segs[i])
    decreases i
  {
    if i > 0 {
      assert segs[1..][..i - 1] == segs[1..i];
      assert segs[..i] == [segs[0]] + segs[1..i];
      DescentFrom(Enter(cwd, segs[0]), segs[1..], i - 1);
    }
  }

  /** Commands that only move the cursor or create directories. */
  predicate NavOnly(ops: seq<Op>) {
    forall i :: 0 <= i < |ops| ==> ops[i].Mkd? || ops[i].Cwd?
  }

  /** The directory entries the MKD commands among `ops` create, in order. */
  function Created(ops: seq<Op>): seq<Entry>
    decreases |ops|
  {
    if ops == [] then []
    else (if ops[0].Mkd? then [Entry(ops[0].at + [ops[0].name], true)] else []) + Created(ops[1..])
  }

  lemma CreatedOne(op: Op)
    ensures Created([op]) == if op.Mkd? then [Entry(op.at + [op.name], true)] else []
  {
    assert [op][1..] == [];
  }

  lemma {:induction false} CreatedAppend(a: seq<Op>, b: seq<Op>)
    ensures Created(a + b) == Created(a) + Created(b)
    decreases |a|
  {
    if a == [] {
      assert a + b == b;
    } else {
      assert (a + b)[0] == a[0];
      assert (a + b)[1..] == a[1..] + b;
      CreatedAppend(a[1..], b);
    }
  }

  /** The server as it stood when command `i` of `ops` was sent: what
      `srv` held, plus the directories the MKDs before it created. */
  function Before(srv: Server, ops: seq<Op>, i: nat): Server
    requires i <= |ops|
  {
    srv.(entries := srv.entries + Created(ops[..i]))
  }

  /** Every MKD among `ops` is for a name that is not the root and that LIST
      did not show, in the directory the MKD was sent from, on the server as
      it stood when the MKD was sent. */
  predicate MkdAtIssue(srv: Server, ops: seq<Op>) {
    forall i :: 0 <= i < |ops| && ops[i].Mkd? ==>
      ops[i].name != "/" && !Listed(Before(srv, ops, i), ops[i].at, ops[i].name)
  }

  /** Every MKD among `ops` is for a name LIST on `srv` does not show. */
  predicate MkdOnlyAbsent(srv: Server, ops: seq<Op>) {
    forall i :: 0 <= i < |ops| && ops[i].Mkd? ==> ops[i].name != "/" && !Listed(srv, ops[i].at, ops[i].name)
  }

  /** Absent when sent is absent from the server as it was before any of them. */
  lemma MkdAbsentBefore(srv: Server, ops: seq<Op>)
    requires MkdAtIssue(srv, ops)
    ensures MkdOnlyAbsent(srv, ops)
  {
    forall i | 0 <= i < |ops| && ops[i].Mkd? ensures !Listed(srv, ops[i].at, ops[i].name) {
      if Listed(srv, ops[i].at, ops[i].name) {
        ListedMonotone(srv, Before(srv, ops, i), ops[i].at, ops[i].name);
      }
    }
  }

  lemma IssuedCompose(s: Session, t: Session, u: Session)
    requires s.trace <= t.trace <= u.trace
    ensures Issued(s, u) == Issued(s, t) + Issued(t, u)
  {
  }

  /** Command `|a| + i` of `a + b` was sent on the server `b`'s command `i`
      was, when `b` started from what `a` created. */
  lemma BeforeShift(srv: Server, mid: Server, a: seq<Op>, b: seq<Op>, i: nat)
    requires i <= |b|
    requires mid == srv.(entries := srv.entries + Created(a))
    ensures Before(srv, a + b, |a| + i) == Before(mid, b, i)
  {
    CreatedShift(a, b, i);
    Grow(srv, Created(a), Created(b[..i]));
  }

  lemma CreatedShift(a: seq<Op>, b: seq<Op>, i: nat)
    requires i <= |b|
    ensures Created((a + b)[..|a| + i]) == Created(a) + Created(b[..i])
  {
    TakeShift(a, b, i);
    CreatedAppend(a, b[..i]);
  }

  lemma Grow(srv: Server, x: seq<Entry>, y: seq<Entry>)
    ensures srv.(entries := srv.entries + (x + y)) == srv.(entries := srv.entries + x).(entries := srv.entries + x + y)
  {
  }

  lemma TakeShift<T>(a: seq<T>, b: seq<T>, i: nat)
    requires i <= |b|
    ensures (a + b)[..|a| + i] == a + b[..i]
  {
  }

  lemma BeforePrefix(srv: Server, a: seq<Op>, b: seq<Op>, i: nat)
    requires i <= |a|
    ensures Before(srv, a + b, i) == Before(srv, a, i)
  {
    assert (a + b)[..i] == a[..i];
  }

  /** Two consecutive steps, the first completed, keep their guarantees when
      joined. */
  lemma ComposeSteps(s: Session, t: Session, u: Session)
    requires Extends(s, t) && Extends(t, u)
    requires NavOnly(Issued(s, t)) && NavOnly(Issued(t, u))
    requires MkdAtIssue(s.server, Issued(s, t)) && MkdAtIssue(t.server, Issued(t, u))
    requires t.server.entries == s.server.entries + Created(Issued(s, t))
    ensures Extends(s, u) && Issued(s, u) == Issued(s, t) + Issued(t, u)
    ensures NavOnly(Issued(s, u)) && MkdAtIssue(s.server, Issued(s, u))
  {
    IssuedCompose(s, t, u);
    var a := Issued(s, t);
    var b := Issued(t, u);
    assert t.server == s.server.(entries := s.server.entries + Created(a));
    JoinMkdAtIssue(s.server, t.server, a, b);
  }

  lemma JoinMkdAtIssue(srv: Server, mid: Server, a: seq<Op>, b: seq<Op>)
    requires mid == srv.(entries := srv.entries + Created(a))
    requires MkdAtIssue(srv, a) && MkdAtIssue(mid, b)
    ensures MkdAtIssue(srv, a + b)
  {
    forall i | 0 <= i < |a + b| && (a + b)[i].Mkd?
      ensures (a + b)[i].name != "/" && !Listed(Before(srv, a + b, i), (a + b)[i].at, (a + b)[i].name)
    {
      if i < |a| {
        JoinLeft(srv, a, b, i);
      } else {
        JoinRight(srv, mid, a, b, i);
      }
    }
  }

  /** An MKD of the first step was sent on the same server in the joined trace. */
  lemma JoinLeft(srv: Server, a: seq<Op>, b: seq<Op>, i: nat)
    requires i < |a| && (a + b)[i].Mkd? && MkdAtIssue(srv, a)
    ensures (a + b)[i].name != "/" && !Listed(Before(srv, a + b, i), (a + b)[i].at, (a + b)[i].name)
  {
    var op := a[i];
    assert (a + b)[i] == op && op.Mkd?;
    assert op.name != "/" && !Listed(Before(srv, a, i), op.at, op.name);
    BeforePrefix(srv, a, b, i);
  }

  /** An MKD of the second step was sent on the server the first step left. */
  lemma JoinRight(srv: Server, mid: Server, a: seq<Op>, b: seq<Op>, i: nat)
    requires mid == srv.(entries := srv.entries + Created(a))
    requires |a| <= i < |a + b| && (a + b)[i].Mkd? && MkdAtIssue(mid, b)
    ensures (a + b)[i].name != "/" && !Listed(Before(srv, a + b, i), (a + b)[i].at, (a + b)[i].name)
  {
    var j := i - |a|;
    var op := b[j];
    assert (a + b)[i] == op && op.Mkd?;
    assert op.name != "/" && !Listed(Before(mid, b, j), op.at, op.name);
    BeforeShift(srv, mid, a, b, j);
    assert Before(srv, a + b, i) == Before(mid, b, j);
  }

  /** Entries grow only by what the MKDs of two consecutive steps created. */
  lemma ComposeCreated(s: Session, t: Session, u: Session)
    requires s.trace <= t.trace <= u.trace
    requires t.server.entries == s.server.entries + Created(Issued(s, t))
    requires u.server.entries == t.server.entries + Created(Issued(t, u))
    ensures u.server.entries == s.server.entries + Created(Issued(s, u))
  {
    IssuedCompose(s, t, u);
    CreatedAppend(Issued(s, t), Issued(t, u));
    SeqAssoc(s.server.entries, Created(Issued(s, t)), Created(Issued(t, u)));
  }

  lemma SeqAssoc<T>(x: seq<T>, y: seq<T>, z: seq<T>)
    ensures (x + y) + z == x + (y + z)
  {
  }

  /** `for dir in segs: chdir(session, dir)`, stopping at the first raise. */
  function Walk(s: Session, segs: seq<string>): (r: Step)
    ensures Extends(s, r.s) && NavOnly(Issued(s, r.s))
    ensures MkdAtIssue(s.server, Issued(s, r.s))
    ensures r.Done? ==> r.s.server.entries == s.server.entries + Created(Issued(s, r.s))
    ensures r.Done? ==> Cwds(Issued(s, r.s)) == Descent(s.cwd, segs) && r.s.cwd == EnterAll(s.cwd, segs)
    ensures r.Raised? ==> Cwds(Issued(s, r.s)) <= Descent(s.cwd, segs)
    decreases |segs|
  {
    if segs == [] then
      assert Issued(s, s) == [];
      Done(s)
    else
      var c := Chdir(s, segs[0]);
      match c
      case Raised(t, e) =>
        assert Cwds(Issued(s, t)) <= Descent(s.cwd, segs);
        c
      case Done(t) =>
        var r := Walk(t, segs[1..]);
        ComposeSteps(s, t, r.s);
        CwdsAppend(Issued(s, t), Issued(t, r.s));
        assert r.Done? ==> r.s.server.entries == s.server.entries + Created(Issued(s, r.s)) by {
          if r.Done? { ComposeCreated(s, t, r.s); }
        }
        r
  }

  /** Walking two lists of segments is walking the first, then, unless it
      raised, the second. */
  lemma {:induction false} WalkAppend(s: Session, a: seq<string>, b: seq<string>)
    ensures Walk(s, a + b) == if Walk(s, a).Raised? then Walk(s, a) else Walk(Walk(s, a).s, b)
    decreases |a|
  {
    if a == [] {
      assert a + b == b;
    } else {
      assert (a + b)[0] == a[0];
      assert (a + b)[1..] == a[1..] + b;
      var c := Chdir(s, a[0]);
      if c.Done? {
        WalkAppend(c.s, a[1..], b);
      }
    }
  }

  /** Navigation sends neither STOR nor QUIT. */
  lemma {:induction false} NavOnlyQuiet(ops: seq<Op>)
    requires NavOnly(ops)
    ensures Stores(ops) == [] && NoQuit(ops)
    decreases |ops|
  {
    if ops != [] {
      NavOnlyQuiet(ops[1..]);
    }
  }

  /** `chdir_nested(session, dir)`: one `chdir` per segment of `normpath(dir)`. */
  function ChdirNested(s: Session, dir: string): Step {
    Walk(s, Segments(dir))
  }

  /** Each MKD `chdir_nested` sends is for a name LIST did not show when the
      MKD was sent; on a well-named server it names no directory that existed
      before, and never "." or ".." where LIST shows them. */
  lemma ChdirNestedCreatesAbsent(s: Session, dir: string, i: nat)
    requires WellNamed(s.server)
    requires i < |Issued(s, ChdirNested(s, dir).s)|
    requires Issued(s, ChdirNested(s, dir).s)[i].Mkd?
    ensures var ops := Issued(s, ChdirNested(s, dir).s);
      !Listed(Before(s.server, ops, i), ops[i].at, ops[i].name)
    ensures var op := Issued(s, ChdirNested(s, dir).s)[i];
      && !IsDir(s.server, op.at + [op.name])
      && !(s.server.listsDots && (op.name == "." || op.name == ".."))
  {
    var ops := Issued(s, ChdirNested(s, dir).s);
    var op := ops[i];
    MkdAbsentBefore(s.server, ops);
    ListedMeaning(s.server, op.at, op.name);
  }

  /** `chdir_nested` sends a CWD for every segment of the normalised path, in
      order, each relative to the directory the previous one entered. */
  lemma ChdirNestedDescends(s: Session, dir: string, i: nat)
    requires ChdirNested(s, dir).Done?
    requires i < |Segments(dir)|
    ensures Cwds(Issued(s, ChdirNested(s, dir).s))[i] == Cwd(EnterAll(s.cwd, Segments(dir)[..i]), Segments(dir)[i])
  {
    DescentFrom(s.cwd, Segments(dir), i);
  }

  /** A directory of a well-named server has a plain name. */
  lemma DirectoryIsPlain(srv: Server, p: Path)
    requires WellNamed(srv) && IsDir(srv, p)
    ensures |p| > 0 && Plain(Leaf(p))
  {
    var i :| 0 <= i < |srv.entries| && srv.entries[i] == Entry(p, true);
    assert NamedEntry(srv.entries[i]);
  }

  /** `normpath('')` is ".", so `chdir_nested('')` lists, and unless LIST
      shows the dot entries it tries to create "." and is refused. */
  lemma EmptyDirectoryIsDot(s: Session)
    requires WellNamed(s.server)
    ensures Segments("") == ["."]
    ensures ChdirNested(s, "") ==
      if s.server.listsDots then Done(s.(trace := s.trace + [Cwd(s.cwd, ".")]))
      else Raised(s.(trace := s.trace + [Mkd(s.cwd, ".")]), FtpRefused("MKD ."))
  {
    SegmentsOfEmpty();
    ChdirDot(s);
    assert Segments("")[1..] == [];
  }

  lemma SegmentsOfEmpty()
    ensures Segments("") == ["."]
  {
    assert Split("", '/') == [""];
    assert Components("") == [];
    SegmentsShape("");
  }

  /** `chdir('.')` on a well-named server: LIST shows "." only when it lists
      the dot entries; otherwise MKD "." is sent and refused. */
  lemma ChdirDot(s: Session)
    requires WellNamed(s.server)
    ensures Chdir(s, ".") ==
      if s.server.listsDots then Done(s.(trace := s.trace + [Cwd(s.cwd, ".")]))
      else Raised(s.(trace := s.trace + [Mkd(s.cwd, ".")]), FtpRefused("MKD ."))
  {
    ListedMeaning(s.server, s.cwd, ".");
    if IsDir(s.server, s.cwd + ["."]) {
      DirectoryIsPlain(s.server, s.cwd + ["."]);
    }
    if !s.server.listsDots {
      MkdRefused(s, ".");
    }
  }

  /** An absolute directory normalises to segments starting with "", so
      `chdir_nested` first tries to create "" and is refused. */
  lemma AbsoluteDirectoryRefused(s: Session, dir: string)
    requires WellNamed(s.server) && IsAbsolute(dir)
    ensures Segments(dir)[0] == ""
    ensures ChdirNested(s, dir) == Raised(s.(trace := s.trace + [Mkd(s.cwd, "")]), FtpRefused("MKD "))
  {
    var segs := Segments(dir);
    SegmentsShape(dir);
    assert segs[0] == "";
    ChdirEmptyRefused(s);
  }

  /** `chdir('')` on a well-named server: LIST never shows "", so MKD "" is
      sent and refused. */
  lemma ChdirEmptyRefused(s: Session)
    requires WellNamed(s.server)
    ensures Chdir(s, "") == Raised(s.(trace := s.trace + [Mkd(s.cwd, "")]), FtpRefused("MKD "))
  {
    EmptyNotListed(s.server, s.cwd);
    assert !Creatable("");
    MkdRefused(s, "");
    assert "MKD " + "" == "MKD ";
  }

  lemma EmptyNotListed(srv: Server, at: Path)
    requires WellNamed(srv)
    ensures DirectoryExists(ListLines(srv, at), "").Ok? && !Listed(srv, at, "")
  {
    ListedMeaning(srv, at, "");
    if IsDir(srv, at + [""]) {
      DirectoryIsPlain(srv, at + [""]);
    }
  }

  /** A name LIST does not show and the server cannot create: `chdir` sends
      MKD, which is refused, and nothing else. */
  lemma MkdRefused(s: Session, dir: string)
    requires dir != "/" && DirectoryExists(ListLines(s.server, s.cwd), dir).Ok?
    requires !Listed(s.server, s.cwd, dir) && !Creatable(dir)
    ensures Chdir(s, dir) == Raised(s.(trace := s.trace + [Mkd(s.cwd, dir)]), FtpRefused("MKD " + dir))
  {
    var listed := DirectoryExists(ListLines(s.server, s.cwd), dir);
    assert listed == Ok(false) by {
      match listed
      case Ok(v) => assert v != true;
    }
    assert Absent(s, dir);
    var m := MkdCommand(s, dir);
    assert m.Raised? && m.s == s.(trace := s.trace + [Mkd(s.cwd, dir)]);
    assert Chdir(s, dir) == CreateAndEnter(s, dir);
  }
}

=== FILE: outcome.dfy ===
/** Failure-carrying datatypes shared by the whole model.  Every Python
    exception the uploader can raise, or lets escape from the libraries it
    calls, becomes one `Error` value. */
module Outcome {

  datatype Option<+T> = None | Some(value: T)

  /** The exceptions the script can end with. */
  datatype Error =
    | IndexError                    // `[-1]` of an empty split, `parts[1]` of an argument without '='
    | FileNotFound(path: string)    // `open(file_path, 'rb')` on a missing local file
    | FtpRefused(command: string)   // `ftplib.error_perm`: the server refused a command
    | ConnectFailed                 // `ftplib.FTP(host, user, password)` raised
    | ZeroDivision                  // `current / total` in the progress bar with no files

  datatype Result<+T> = Ok(value: T) | Err(error: Error)
}

=== FILE: posixpath.dfy ===
/** The parts of Python's `posixpath` (`os.path` with `os.sep == '/'`) the
    uploader calls: `normpath`, `dirname`, `basename` and `splitext`. */
module PosixPath {
  import opened Text

  predicate IsAbsolute(p: string) {
    |p| > 0 && p[0] == '/'
  }

  /** The components a normalised path keeps: none empty, none ".", none
      containing '/', and ".." only in a leading run of a relative path. */
  predicate Normal(comps: seq<string>, absolute: bool) {
    forall i :: 0 <= i < |comps| ==>
      && comps[i] != "" && comps[i] != "." && '/' !in comps[i]
      && (comps[i] == ".." ==> !absolute && forall j :: 0 <= j < i ==> comps[j] == "..")
  }

  /** The component loop of `normpath`: empty and "." components are
      dropped, ".." removes the previous component unless there is none to
      remove (kept in a relative path, dropped at the root of an absolute one). */
  function Resolve(parts: seq<string>, absolute: bool, acc: seq<string>): (comps: seq<string>)
    requires forall i :: 0 <= i < |parts| ==> '/' !in parts[i]
    requires Normal(acc, absolute)
    ensures Normal(comps, absolute)
    decreases |parts|
  {
    if parts == [] then acc
    else
      var c := parts[0];
      var next :=
        if c == "" || c == "." then acc
        else if c != ".." || (!absolute && acc == []) || (acc != [] && acc[|acc| - 1] == "..") then acc + [c]
        else if acc != [] then acc[..|acc| - 1]
        else acc;
      Resolve(parts[1..], absolute, next)
  }

  /** The components `normpath` keeps of `p`. */
  function Components(p: string): (comps: seq<string>)
    ensures Normal(comps, IsAbsolute(p))
  {
    Resolve(Split(p, '/'), IsAbsolute(p), [])
  }

  /** `os.path.normpath(p)`.  The POSIX rule that keeps exactly two leading
      slashes is not modelled: any absolute path keeps one. */
  function Normpath(p: string): (r: string)
    ensures r != ""
    ensures IsAbsolute(r) <==> IsAbsolute(p)
  {
    var comps := Components(p);
    var body := Join(comps, '/');
    assert comps != [] ==> comps[0] <= body by {
      if comps != [] { JoinStartsWith(comps, '/'); }
    }
    var r := if IsAbsolute(p) then "/" + body else body;
    if r == "" then "." else r
  }

  /** `Normpath(p).split('/')`: the segments `chdir_nested` walks. */
  function Segments(p: string): seq<string> {
    Split(Normpath(p), '/')
  }

  lemma {:induction false} JoinStartsWith(parts: seq<string>, sep: char)
    requires |parts| > 0
    ensures parts[0] <= Join(parts, sep)
  {
  }

  lemma SplitLeadingSep(s: string, sep: char)
    ensures Split([sep] + s, sep) == [""] + Split(s, sep)
  {
    var t := [sep] + s;
    assert IndexOf(t, sep) == 0;
    assert t[1..] == s;
  }

  /** Resolving components that are already normal changes nothing. */
  lemma {:induction false} ResolveNormal(parts: seq<string>, absolute: bool, acc: seq<string>)
    requires forall i :: 0 <= i < |parts| ==> '/' !in parts[i]
    requires Normal(acc, absolute)
    requires Normal(acc + parts, absolute)
    ensures Resolve(parts, absolute, acc) == acc + parts
    decreases |parts|
  {
    if parts != [] {
      var c := parts[0];
      assert (acc + parts)[|acc|] == c;
      if c == ".." && acc != [] {
        assert (acc + parts)[|acc| - 1] == acc[|acc| - 1];
      }
      assert acc + parts == (acc + [c]) + parts[1..];
      ResolveNormal(parts[1..], absolute, acc + [c]);
    }
  }

  /** The segments of a normalised path: its components, with "." standing
      for an empty relative path and a leading "" for the root. */
  lemma SegmentsShape(p: string)
    ensures var comps := Components(p);
      Segments(p) ==
        if IsAbsolute(p) then [""] + (if comps == [] then [""] else comps)
        else if comps == [] then ["."] else comps
  {
    var comps := Components(p);
    if comps != [] { SplitJoin(comps, '/'); }
    if IsAbsolute(p) { SplitLeadingSep(Join(comps, '/'), '/'); }
  }

  /** Normalising a normalised path keeps its components. */
  lemma ComponentsOfNormpath(p: string)
    ensures Components(Normpath(p)) == Components(p)
  {
    var comps := Components(p);
    var absolute := IsAbsolute(p);
    var parts := Split(Normpath(p), '/');
    SegmentsShape(p);
    if comps == [] {
      assert Resolve(parts, absolute, []) == [] by {
        if absolute {
          assert parts == ["", ""];
          assert parts[1..] == [""];
        } else {
          assert parts == ["."];
        }
      }
    } else {
      assert Resolve(comps, absolute, []) == comps by {
        assert [] + comps == comps;
        ResolveNormal(comps, absolute, []);
      }
      if absolute {
        assert parts == [""] + comps;
        assert parts[1..] == comps;
      }
    }
  }

  /** A path spelled from normal components, with a leading '/' when it is
      absolute, is its own normal form: `normpath` returns it unchanged. */
  lemma NormpathOfNormal(comps: seq<string>, absolute: bool)
    requires comps != []
    requires Normal(comps, absolute)
    ensures var p := (if absolute then "/" else "") + Join(comps, '/');
      Normpath(p) == p
  {
    var body := Join(comps, '/');
    var p := (if absolute then "/" else "") + body;
    JoinStartsWith(comps, '/');
    assert comps[0] != "" && comps[0][0] == body[0];
    assert IsAbsolute(p) == absolute by {
      if !absolute { assert p == body; assert comps[0][0] != '/' by { assert '/' !in comps[0]; } }
    }
    SplitJoin(comps, '/');
    assert Resolve(comps, absolute, []) == comps by {
      assert [] + comps == comps;
      ResolveNormal(comps, absolute, []);
    }
    if absolute {
      SplitLeadingSep(body, '/');
      var parts := Split(p, '/');
      assert parts == [""] + comps;
      assert parts[1..] == comps;
      assert parts[0] == "";
      assert Resolve(parts, true, []) == Resolve(parts[1..], true, []);
      assert Components(p) == comps;
    } else {
      assert p == body;
      assert Split(p, '/') == comps;
      assert Components(p) == comps;
    }
  }

  /** `normpath` is idempotent. */
  lemma NormpathIdempotent(p: string)
    ensures Normpath(Normpath(p)) == Normpath(p)
  {
    ComponentsOfNormpath(p);
  }

  /** Index of the last occurrence of `c` in `s`, or -1: `str.rfind`. */
  function RFind(s: string, c: char): (i: int)
    ensures -1 <= i < |s|
    ensures i >= 0 ==> s[i] == c
    ensures forall j :: i < j < |s| ==> s[j] != c
    decreases |s|
  {
    if |s| == 0 then -1
    else if s[|s| - 1] == c then |s| - 1
    else RFind(s[..|s| - 1], c)
  }

  /** `RFind` finds the occurrence after which `c` no longer appears. */
  lemma {:induction false} RFindAt(s: string, c: char, i: int)
    requires -1 <= i < |s| && (i >= 0 ==> s[i] == c)
    requires forall j :: i < j < |s| ==> s[j] != c
    ensures RFind(s, c) == i
    decreases |s|
  {
    if |s| > 0 && i < |s| - 1 {
      var t := s[..|s| - 1];
      assert forall j :: i < j < |t| ==> t[j] == s[j];
      RFindAt(t, c, i);
    }
  }

  /** A single name other than "." and ".." normalises to itself. */
  lemma NormpathOfName(n: string)
    requires n != "" && n != "." && n != ".." && '/' !in n
    ensures Normpath(n) == n
  {
    assert Split(n, '/') == [n];
    assert Resolve([n], false, []) == Resolve([], false, [n]) by { assert [n][1..] == []; }
    assert !IsAbsolute(n) by { assert n[0] != '/'; }
  }

  /** `s.rstrip(c)`. */
  function RStrip(s: string, c: char): (r: string)
    ensures r <= s
    ensures r == [] || r[|r| - 1] != c
    ensures forall j :: |r| <= j < |s| ==> s[j] == c
    decreases |s|
  {
    if |s| > 0 && s[|s| - 1] == c then RStrip(s[..|s| - 1], c) else s
  }

  predicate AllSlashes(s: string) {
    forall j :: 0 <= j < |s| ==> s[j] == '/'
  }

  /** `os.path.basename(p)`: what follows the last '/'. */
  function Basename(p: string): (b: string)
    ensures '/' !in b
  {
    p[RFind(p, '/') + 1..]
  }

  /** `os.path.dirname(p)`: what precedes the last '/', with trailing
      slashes removed unless it consists only of slashes. */
  function Dirname(p: string): (d: string)
    ensures d <= p
    ensures '/' in p <==> d != ""
    ensures forall j :: |d| <= j <= RFind(p, '/') ==> p[j] == '/'
    ensures AllSlashes(d) || d[|d| - 1] != '/'
    ensures |d| <= RFind(p, '/') + 1
    ensures AllSlashes(p[..RFind(p, '/') + 1]) ==> d == p[..RFind(p, '/') + 1]
  {
    var i := RFind(p, '/') + 1;
    var head := p[..i];
    assert '/' in p ==> head[i - 1] == '/';
    if head != "" && !AllSlashes(head) then RStrip(head, '/') else head
  }

  /** A path is its directory part, the slashes that separate it from the
      base name, and the base name. */
  lemma DirnameBasename(p: string)
    ensures var i := RFind(p, '/') + 1;
      && AllSlashes(p[|Dirname(p)|..i])
      && p == Dirname(p) + p[|Dirname(p)|..i] + Basename(p)
  {
    var d := Dirname(p);
    var i := RFind(p, '/') + 1;
    var mid := p[|d|..i];
    forall j | 0 <= j < |mid| ensures mid[j] == '/' {
      assert mid[j] == p[|d| + j];
    }
    assert p == p[..|d|] + mid + p[i..];
  }

  /** Every character of `p[lo..hi]` is a dot. */
  predicate AllDots(p: string, lo: int, hi: int)
    requires -1 <= lo && hi <= |p|
  {
    forall k :: lo < k < hi ==> p[k] == '.'
  }

  /** `splitext` finds an extension: the last '.' follows the last '/', and
      something other than dots lies between them. */
  predicate HasExtension(p: string) {
    var sepIndex := RFind(p, '/');
    var dotIndex := RFind(p, '.');
    dotIndex > sepIndex && !AllDots(p, sepIndex, dotIndex)
  }

  /** `os.path.splitext(p)`: the extension is the last '.' of the final
      path component and what follows it, unless everything before that
      '.' in the component is dots (so ".bashrc" has none). */
  function Splitext(p: string): (r: (string, string))
    ensures r.0 + r.1 == p
    ensures r.1 == "" || (r.1[0] == '.' && '/' !in r.1 && '.' !in r.1[1..])
    ensures r.1 != "" <==> DotAfterName(p)
  {
    HasExtensionMeaning(p);
    if HasExtension(p) then
      var dotIndex := RFind(p, '.');
      ExtensionShape(p, dotIndex);
      (p[..dotIndex], p[dotIndex..])
    else (p, "")
  }

  /** The final component has a '.' somewhere after a character that is
      not a '.'. */
  predicate DotAfterName(p: string) {
    exists k, j :: RFind(p, '/') < k < j < |p| && p[k] != '.' && p[j] == '.'
  }

  lemma HasExtensionMeaning(p: string)
    ensures HasExtension(p) <==> DotAfterName(p)
  {
    var sepIndex := RFind(p, '/');
    var dotIndex := RFind(p, '.');
    if HasExtension(p) {
      var k :| sepIndex < k < dotIndex && p[k] != '.';
      assert sepIndex < k < dotIndex < |p| && p[k] != '.' && p[dotIndex] == '.';
    }
    if DotAfterName(p) {
      var k, j :| sepIndex < k < j < |p| && p[k] != '.' && p[j] == '.';
      assert j <= dotIndex;
      assert !AllDots(p, sepIndex, dotIndex);
    }
  }

  /** What follows the last '.' after the last '/' holds neither. */
  lemma ExtensionShape(p: string, dotIndex: nat)
    requires dotIndex == RFind(p, '.') && dotIndex > RFind(p, '/')
    ensures p[dotIndex..][0] == '.' && '/' !in p[dotIndex..] && '.' !in p[dotIndex..][1..]
  {
    var e := p[dotIndex..];
    forall j | 0 <= j < |e| ensures e[j] != '/' && (j > 0 ==> e[j] != '.') {
      assert e[j] == p[dotIndex + j];
    }
  }

  /** The last '/' of a string is also the last '/' of every prefix that
      still contains it. */
  lemma {:induction false} RFindPrefix(s: string, c: char, n: nat)
    requires RFind(s, c) < n <= |s|
    ensures RFind(s[..n], c) == RFind(s, c)
    decreases |s|
  {
    if n < |s| {
      var t := s[..|s| - 1];
      assert s[|s| - 1] != c;
      assert RFind(s, c) == RFind(t, c);
      assert t[..n] == s[..n];
      RFindPrefix(t, c, n);
    }
  }

  /** The stem and extension of a file name make up its base name again. */
  lemma BasenameOfStem(p: string)
    ensures Basename(Splitext(p).0) + Splitext(p).1 == Basename(p)
  {
    if HasExtension(p) {
      var dotIndex := RFind(p, '.');
      assert Splitext(p) == (p[..dotIndex], p[dotIndex..]);
      BasenameOfPrefix(p, dotIndex);
    } else {
      assert Splitext(p) == (p, "");
      assert Basename(p) + "" == Basename(p);
    }
  }

  /** Cutting a path after its last '/' shortens only its base name. */
  lemma BasenameOfPrefix(p: string, n: nat)
    requires RFind(p, '/') < n <= |p|
    ensures Basename(p[..n]) + p[n..] == Basename(p)
  {
    var q := p[..n];
    var i := RFind(p, '/') + 1;
    RFindPrefix(p, '/', n);
    assert Basename(q) == q[i..];
    assert Basename(p) == p[i..];
    SuffixOfPrefix(p, i, n);
    SlicesJoin(p, i, n);
  }

  lemma SuffixOfPrefix(p: string, i: nat, n: nat)
    requires i <= n <= |p|
    ensures p[..n][i..] == p[i..n]
  {
  }

  lemma SlicesJoin(p: string, i: nat, n: nat)
    requires i <= n <= |p|
    ensures p[i..n] + p[n..] == p[i..]
  {
  }
}

=== FILE: remote.dfy ===
/** The remote side of an upload session, which the script reaches only
    through `ftplib`: a server holding directories and files, a session whose
    cursor is the current remote directory, and the trace of commands issued.
    The server's answers to MKD, CWD, STOR and LIST are assumptions of the
    model, stated here once. */
module Remote {
  import opened Outcome
  import opened Text
  import opened Listing

  /** A remote path, as the names of its directories from the root. */
  type Path = seq<string>

  datatype Entry = Entry(path: Path, isDir: bool)

  /** The remote file system: its entries in creation order, whether LIST
      shows the "." and ".." entries, and the file paths STOR is refused for
      (permissions, quota). */
  datatype Server = Server(entries: seq<Entry>, listsDots: bool, refused: set<Path>)

  /** A command sent on the control connection, with the cursor it was sent from. */
  datatype Op =
    | Mkd(at: Path, name: string)
    | Cwd(at: Path, name: string)
    | Stor(at: Path, name: string)
    | Quit

  /** An open or closed session: the server, the cursor, the commands sent
      so far, and whether QUIT has not yet been sent. */
  datatype Session = Session(server: Server, cwd: Path, trace: seq<Op>, open: bool)

  /** A session step either completes or raises, leaving the session as it
      stands at that point. */
  datatype Step = Done(s: Session) | Raised(s: Session, error: Error)

  predicate IsDir(srv: Server, p: Path) {
    Entry(p, true) in srv.entries
  }

  predicate Occupied(srv: Server, p: Path) {
    Entry(p, true) in srv.entries || Entry(p, false) in srv.entries
  }

  /** The session `t` continues `s`: its trace and the server's entries only
      grew, and nothing else about the server or the connection changed. */
  predicate Extends(s: Session, t: Session) {
    && s.trace <= t.trace
    && s.server.entries <= t.server.entries
    && t.server.listsDots == s.server.listsDots
    && t.server.refused == s.server.refused
    && t.open == s.open
  }

  /** The commands `t` sent after `s`. */
  function Issued(s: Session, t: Session): seq<Op>
    requires s.trace <= t.trace
  {
    t.trace[|s.trace|..]
  }

  predicate NoQuit(ops: seq<Op>) {
    forall i :: 0 <= i < |ops| ==> !ops[i].Quit?
  }

  /** The CWD commands among `ops`, in order. */
  function Cwds(ops: seq<Op>): seq<Op>
    decreases |ops|
  {
    if ops == [] then []
    else (if ops[0].Cwd? then [ops[0]] else []) + Cwds(ops[1..])
  }

  /** The STOR commands among `ops`, in order. */
  function Stores(ops: seq<Op>): seq<Op>
    decreases |ops|
  {
    if ops == [] then []
    else (if ops[0].Stor? then [ops[0]] else []) + Stores(ops[1..])
  }

  function QuitCount(ops: seq<Op>): nat
    decreases |ops|
  {
    if ops == [] then 0
    else (if ops[0].Quit? then 1 else 0) + QuitCount(ops[1..])
  }

  lemma {:induction false} CwdsAppend(a: seq<Op>, b: seq<Op>)
    ensures Cwds(a + b) == Cwds(a) + Cwds(b)
    decreases |a|
  {
    if a == [] {
      assert a + b == b;
    } else {
      assert (a + b)[0] == a[0];
      assert (a + b)[1..] == a[1..] + b;
      CwdsAppend(a[1..], b);
    }
  }

  lemma {:induction false} StoresAppend(a: seq<Op>, b: seq<Op>)
    ensures Stores(a + b) == Stores(a) + Stores(b)
    decreases |a|
  {
    if a == [] {
      assert a + b == b;
    } else {
      assert (a + b)[0] == a[0];
      assert (a + b)[1..] == a[1..] + b;
      StoresAppend(a[1..], b);
    }
  }

  lemma {:induction false} QuitCountAppend(a: seq<Op>, b: seq<Op>)
    ensures QuitCount(a + b) == QuitCount(a) + QuitCount(b)
    decreases |a|
  {
    if a == [] {
      assert a + b == b;
    } else {
      assert (a + b)[0] == a[0];
      assert (a + b)[1..] == a[1..] + b;
      QuitCountAppend(a[1..], b);
    }
  }

  lemma {:induction false} NoQuitCount(ops: seq<Op>)
    requires NoQuit(ops)
    ensures QuitCount(ops) == 0
    decreases |ops|
  {
    if ops != [] { NoQuitCount(ops[1..]); }
  }

  /** Where the cursor goes on a successful CWD: "/" is the root, "" and "."
      stay (ftplib sends "CWD ." for ""), ".." is the parent, anything else
      a child of the current directory. */
  function Enter(cwd: Path, name: string): Path {
    if name == "/" then []
    else if name == "" || name == "." then cwd
    else if name == ".." then (if cwd == [] then [] else cwd[..|cwd| - 1])
    else cwd + [name]
  }

  function EnterAll(cwd: Path, names: seq<string>): Path
    decreases |names|
  {
    if names == [] then cwd else EnterAll(Enter(cwd, names[0]), names[1..])
  }

  /** Names that never denote a new directory: MKD refuses them. */
  predicate Creatable(name: string) {
    name != "" && name != "." && name != ".." && '/' !in name
  }

  /** `session.mkd(name)`: refused when the name cannot be created or
      something of that name is already in the current directory. */
  function MkdCommand(s: Session, name: string): (r: Step)
    ensures r.s.trace == s.trace + [Mkd(s.cwd, name)]
    ensures r.s.cwd == s.cwd && r.s.open == s.open
    ensures r.Done? <==> Creatable(name) && !Occupied(s.server, s.cwd + [name])
    ensures r.Done? ==> r.s.server.entries == s.server.entries + [Entry(s.cwd + [name], true)]
    ensures r.Raised? ==> r.s.server == s.server && r.error == FtpRefused("MKD " + name)
  {
    var t := s.(trace := s.trace + [Mkd(s.cwd, name)]);
    if Creatable(name) && !Occupied(s.server, s.cwd + [name]) then
      Done(t.(server := s.server.(entries := s.server.entries + [Entry(s.cwd + [name], true)])))
    else Raised(t, FtpRefused("MKD " + name))
  }

  /** `session.cwd(name)`: refused when a plain name is not a directory of
      the current one. */
  function CwdCommand(s: Session, name: string): (r: Step)
    ensures r.s.trace == s.trace + [Cwd(s.cwd, name)]
    ensures r.s.server == s.server && r.s.open == s.open
    ensures r.Done? <==> name in {"/", "", ".", ".."} || IsDir(s.server, s.cwd + [name])
    ensures r.Done? ==> r.s.cwd == Enter(s.cwd, name)
    ensures r.Raised? ==> r.s.cwd == s.cwd && r.error == FtpRefused("CWD " + name)
  {
    var t := s.(trace := s.trace + [Cwd(s.cwd, name)]);
    if name in {"/", "", ".", ".."} || IsDir(s.server, s.cwd + [name]) then Done(t.(cwd := Enter(s.cwd, name)))
    else Raised(t, FtpRefused("CWD " + name))
  }

  /** `session.storbinary('STOR ' + name, file)`: refused for a refused path or
      onto a directory; otherwise the file exists afterwards. */
  function StorCommand(s: Session, name: string): (r: Step)
    ensures r.s.trace == s.trace + [Stor(s.cwd, name)]
    ensures r.s.cwd == s.cwd && r.s.open == s.open
    ensures r.Done? <==> s.cwd + [name] !in s.server.refused && !IsDir(s.server, s.cwd + [name])
    ensures r.Done? ==> Entry(s.cwd + [name], false) in r.s.server.entries
    ensures s.server.entries <= r.s.server.entries
    ensures r.s.server.listsDots == s.server.listsDots && r.s.server.refused == s.server.refused
    ensures r.Raised? ==> r.error == FtpRefused("STOR " + name)
  {
    var t := s.(trace := s.trace + [Stor(s.cwd, name)]);
    var p := s.cwd + [name];
    if p !in s.server.refused && !IsDir(s.server, p) then
      if Entry(p, false) in s.server.entries then Done(t)
      else Done(t.(server := s.server.(entries := s.server.entries + [Entry(p, false)])))
    else Raised(t, FtpRefused("STOR " + name))
  }

  /** `session.quit()`: always closes the session. */
  function QuitCommand(s: Session): (t: Session)
    ensures t.trace == s.trace + [Quit] && !t.open
    ensures t.server == s.server && t.cwd == s.cwd
  {
    s.(trace := s.trace + [Quit], open := false)
  }

  // ---------------------------------------------------------------------
  // What LIST answers.

  /** One LIST line in the Unix `ls -l` layout: type marker, then fields,
      then the name. */
  function LineFor(isDir: bool, name: string): string {
    LinePrefix(isDir) + [' '] + name
  }

  /** Type and permissions, link count, owner, group, size and date. */
  function LinePrefix(isDir: bool): (p: string)
    ensures |p| > 0 && p[0] == (if isDir then 'd' else '-')
  {
    (if isDir then "drwxr-xr-x" else "-rw-r--r--") + " 1 ftp ftp 0 Jan 01 00:00"
  }

  function Parent(p: Path): Path
    requires |p| > 0
  {
    p[..|p| - 1]
  }

  /** The lines for the entries directly inside `at`, in creation order. */
  function ChildLines(entries: seq<Entry>, at: Path): seq<string>
    decreases |entries|
  {
    if entries == [] then []
    else
      var e := entries[|entries| - 1];
      ChildLines(entries[..|entries| - 1], at)
        + (if |e.path| > 0 && Parent(e.path) == at then [LineFor(e.isDir, e.path[|e.path| - 1])] else [])
  }

  /** The LIST reply for the directory `at`. */
  function ListLines(srv: Server, at: Path): seq<string> {
    (if srv.listsDots then [LineFor(true, "."), LineFor(true, "..")] else []) + ChildLines(srv.entries, at)
  }

  /** `directory_exists` answered true for `name` in the directory `at`. */
  predicate Listed(srv: Server, at: Path, name: string) {
    DirectoryExists(ListLines(srv, at), name) == Ok(true)
  }

  /** Creating entries only appends LIST lines. */
  lemma {:induction false} ChildLinesPrefix(a: seq<Entry>, b: seq<Entry>, at: Path)
    requires a <= b
    ensures ChildLines(a, at) <= ChildLines(b, at)
    decreases |b|
  {
    if |a| < |b| {
      assert a <= b[..|b| - 1];
      ChildLinesPrefix(a, b[..|b| - 1], at);
    } else {
      assert a == b;
    }
  }

  /** A directory LIST shows stays shown as the server grows. */
  lemma ListedMonotone(srv: Server, srv': Server, at: Path, name: string)
    requires srv.entries <= srv'.entries && srv.listsDots == srv'.listsDots
    requires Listed(srv, at, name)
    ensures Listed(srv', at, name)
  {
    ListLinesPrefix(srv, srv', at);
    PrefixExtend(ListLines(srv, at), ListLines(srv', at), name);
  }

  lemma ListLinesPrefix(srv: Server, srv': Server, at: Path)
    requires srv.entries <= srv'.entries && srv.listsDots == srv'.listsDots
    ensures ListLines(srv, at) <= ListLines(srv', at)
  {
    ChildLinesPrefix(srv.entries, srv'.entries, at);
  }

  lemma PrefixExtend(a: seq<string>, b: seq<string>, name: string)
    requires a <= b && DirectoryExists(a, name) == Ok(true)
    ensures DirectoryExists(b, name) == Ok(true)
  {
    assert b == a + b[|a|..];
    DirectoryExistsExtend(a, b[|a|..], name);
  }

  // ---------------------------------------------------------------------
  // LIST against the server's contents.

  /** Directory names LIST can report faithfully: creatable and free of
      whitespace. */
  predicate Plain(name: string) {
    Creatable(name) && NoSpace(name)
  }

  function Leaf(p: Path): string
    requires |p| > 0
  {
    p[|p| - 1]
  }

  /** Every entry has a name, and every directory a plain one. */
  predicate WellNamed(srv: Server) {
    forall i :: 0 <= i < |srv.entries| ==> NamedEntry(srv.entries[i])
  }

  predicate NamedEntry(e: Entry) {
    |e.path| > 0 && |Leaf(e.path)| > 0 && (e.isDir ==> Plain(Leaf(e.path)))
  }

  /** A LIST line is never blank, and it names a directory exactly when it is
      a directory's line and carries that name. */
  lemma LineForMeaning(isDir: bool, leaf: string, name: string)
    requires |leaf| > 0 && (isDir ==> NoSpace(leaf))
    ensures !Blank(LineFor(isDir, leaf))
    ensures NamesDirectory(LineFor(isDir, leaf), name) <==> isDir && leaf == name
  {
    var prefix := LinePrefix(isDir);
    var line := LineFor(isDir, leaf);
    assert line[0] == prefix[0];
    if isDir {
      assert !IsSpace(prefix[0]);
      NamesDirectoryOfLine(prefix, leaf, name);
    } else {
      assert !IsSpace(line[0]);
    }
  }

  /** Every line of `ChildLines` is the line of an entry directly inside
      `at`; `k` is that entry's index. */
  lemma {:induction false} ChildLineSource(entries: seq<Entry>, at: Path, i: nat) returns (k: nat)
    requires i < |ChildLines(entries, at)|
    ensures k < |entries| && |entries[k].path| > 0 && Parent(entries[k].path) == at
    ensures ChildLines(entries, at)[i] == LineFor(entries[k].isDir, Leaf(entries[k].path))
    decreases |entries|
  {
    var n := |entries| - 1;
    var init := entries[..n];
    if i < |ChildLines(init, at)| {
      k := ChildLineSource(init, at, i);
      assert init[k] == entries[k];
    } else {
      k := n;
    }
  }

  /** Every entry directly inside `at` has its line in `ChildLines`. */
  lemma {:induction false} ChildLineOf(entries: seq<Entry>, at: Path, k: nat)
    requires k < |entries| && |entries[k].path| > 0 && Parent(entries[k].path) == at
    ensures LineFor(entries[k].isDir, Leaf(entries[k].path)) in ChildLines(entries, at)
    decreases |entries|
  {
    var n := |entries| - 1;
    if k < n {
      assert entries[..n][k] == entries[k];
      ChildLineOf(entries[..n], at, k);
    }
  }

  /** One child line of a well-named server is not blank, and names only the
      directory it is the line of. */
  lemma ChildLineMeaning(srv: Server, at: Path, name: string, i: nat)
    requires WellNamed(srv) && i < |ChildLines(srv.entries, at)|
    ensures !Blank(ChildLines(srv.entries, at)[i])
    ensures NamesDirectory(ChildLines(srv.entries, at)[i], name) ==> IsDir(srv, at + [name])
  {
    var es := srv.entries;
    var line := ChildLines(es, at)[i];
    var k := ChildLineSource(es, at, i);
    var e := es[k];
    var leaf := Leaf(e.path);
    assert NamedEntry(e);
    LineForMeaning(e.isDir, leaf, name);
    assert e.path == at + [leaf];
  }

  /** The child lines of a well-named server name a directory exactly when
      it is a directory entry inside `at`, and none of them is blank. */
  lemma ChildLinesMeaning(srv: Server, at: Path, name: string)
    requires WellNamed(srv)
    ensures NoBlankLine(ChildLines(srv.entries, at))
    ensures AnyNames(ChildLines(srv.entries, at), name) <==> IsDir(srv, at + [name])
  {
    var es := srv.entries;
    var kids := ChildLines(es, at);
    forall i | 0 <= i < |kids| ensures !Blank(kids[i]) && (NamesDirectory(kids[i], name) ==> IsDir(srv, at + [name])) {
      ChildLineMeaning(srv, at, name, i);
    }
    if IsDir(srv, at + [name]) {
      var k :| 0 <= k < |es| && es[k] == Entry(at + [name], true);
      assert Parent(es[k].path) == at && Leaf(es[k].path) == name;
      ChildLineOf(es, at, k);
      assert NamedEntry(es[k]);
      LineForMeaning(true, name, name);
    }
  }

  /** The "." and ".." lines name those two directories and no other. */
  lemma DotLinesMeaning(name: string)
    ensures NoBlankLine([LineFor(true, "."), LineFor(true, "..")])
    ensures AnyNames([LineFor(true, "."), LineFor(true, "..")], name) <==> name == "." || name == ".."
  {
    var a := LineFor(true, ".");
    var b := LineFor(true, "..");
    assert NoSpace(".") && NoSpace("..");
    LineForMeaning(true, ".", name);
    LineForMeaning(true, "..", name);
    TwoLines(a, b, name);
  }

  lemma TwoLines(a: string, b: string, name: string)
    ensures NoBlankLine([a, b]) <==> !Blank(a) && !Blank(b)
    ensures AnyNames([a, b], name) <==> NamesDirectory(a, name) || NamesDirectory(b, name)
  {
    var ls := [a, b];
    assert ls[0] == a && ls[1] == b;
    if AnyNames(ls, name) {
      var i :| 0 <= i < 2 && NamesDirectory(ls[i], name);
      assert i == 0 || i == 1;
    }
  }

  /** On a well-named server, `directory_exists` sees exactly the directories
      of `at`, plus "." and ".." when LIST shows them; it never raises. */
  lemma ListedMeaning(srv: Server, at: Path, name: string)
    requires WellNamed(srv)
    ensures DirectoryExists(ListLines(srv, at), name).Ok?
    ensures Listed(srv, at, name) <==> IsDir(srv, at + [name]) || (srv.listsDots && (name == "." || name == ".."))
  {
    ChildLinesMeaning(srv, at, name);
    var kids := ChildLines(srv.entries, at);
    var dots := if srv.listsDots then [LineFor(true, "."), LineFor(true, "..")] else [];
    DotLinesMeaning(name);
    assert NoBlankLine(dots) && (AnyNames(dots, name) <==> srv.listsDots && (name == "." || name == ".."));
    ConcatLines(dots, kids, name);
    DirectoryExistsWithoutBlanks(dots + kids, name);
  }
}

=== FILE: text.dfy ===
/** The string primitives of Python the uploader relies on: `str.isspace`,
    `str.split()` without argument, `str.split(sep)`, `sep.join(...)`,
    `str.removeprefix`.  Strings are sequences of characters. */
module Text {

  /** Python's `str.isspace` for one character: the characters on which
      `str.split()` without argument breaks a line. */
  predicate IsSpace(c: char) {
    || c == ' '
    || ('\U{9}' <= c <= '\U{D}')
    || ('\U{1C}' <= c <= '\U{1F}')
    || c == '\U{85}' || c == '\U{A0}' || c == '\U{1680}'
    || ('\U{2000}' <= c <= '\U{200A}')
    || c == '\U{2028}' || c == '\U{2029}' || c == '\U{202F}' || c == '\U{205F}' || c == '\U{3000}'
  }

  predicate NoSpace(s: string) {
    forall i :: 0 <= i < |s| ==> !IsSpace(s[i])
  }

  predicate Blank(s: string) {
    forall i :: 0 <= i < |s| ==> IsSpace(s[i])
  }

  /** Start of the maximal run of non-space characters that ends at index `j`. */
  function WordStart(s: string, j: nat): (k: nat)
    requires j < |s| && !IsSpace(s[j])
    ensures k <= j
    ensures NoSpace(s[k..j + 1])
    ensures k == 0 || IsSpace(s[k - 1])
    decreases j
  {
    if j == 0 || IsSpace(s[j - 1]) then j
    else
      var k := WordStart(s, j - 1);
      assert s[k..j + 1] == s[k..j] + [s[j]];
      k
  }

  /** `s.split()`: the maximal runs of non-space characters, in order. */
  function Tokens(s: string): (ws: seq<string>)
    ensures forall i :: 0 <= i < |ws| ==> |ws[i]| > 0 && NoSpace(ws[i])
    ensures ws == [] <==> Blank(s)
    decreases |s|
  {
    if |s| == 0 then []
    else if IsSpace(s[|s| - 1]) then
      assert Blank(s) <==> Blank(s[..|s| - 1]) by {
        if Blank(s[..|s| - 1]) {
          forall i | 0 <= i < |s| ensures IsSpace(s[i]) {
            if i < |s| - 1 { assert s[i] == s[..|s| - 1][i]; }
          }
        }
      }
      Tokens(s[..|s| - 1])
    else
      var k := WordStart(s, |s| - 1);
      assert s[k..] == s[k..|s| - 1 + 1];
      assert !Blank(s);
      Tokens(s[..k]) + [s[k..]]
  }

  /** A word followed by a space has the word's start right after that space. */
  lemma {:induction false} WordStartAfterSpace(s: string, m: nat, j: nat)
    requires m <= j < |s|
    requires NoSpace(s[m..j + 1])
    requires m == 0 || IsSpace(s[m - 1])
    ensures WordStart(s, j) == m
    decreases j - m
  {
    assert s[j] == s[m..j + 1][j - m];
    if j > m {
      assert s[j - 1] == s[m..j + 1][j - 1 - m];
      assert s[m..j] == s[m..j + 1][..j - m];
      WordStartAfterSpace(s, m, j - 1);
    }
  }

  lemma TokensUnfoldWord(s: string, k: nat)
    requires |s| > 0 && !IsSpace(s[|s| - 1])
    requires k == WordStart(s, |s| - 1)
    ensures Tokens(s) == Tokens(s[..k]) + [s[k..]]
  {
  }

  lemma TokensUnfoldSpace(s: string)
    requires |s| > 0 && IsSpace(s[|s| - 1])
    ensures Tokens(s) == Tokens(s[..|s| - 1])
  {
  }

  /** A line whose last word follows a space at index `k - 1`. */
  lemma TokensLastWord(s: string, k: nat)
    requires 0 < k < |s|
    requires IsSpace(s[k - 1]) && NoSpace(s[k..])
    ensures Tokens(s) == Tokens(s[..k - 1]) + [s[k..]]
  {
    LastWordStart(s, k);
    TokensUnfoldWord(s, k);
    TokensDropSpace(s, k);
  }

  lemma LastWordStart(s: string, k: nat)
    requires 0 < k < |s|
    requires IsSpace(s[k - 1]) && NoSpace(s[k..])
    ensures !IsSpace(s[|s| - 1]) && WordStart(s, |s| - 1) == k
  {
    var j := |s| - 1;
    var w := s[k..];
    assert s[j] == w[j - k] && !IsSpace(w[j - k]);
    assert s[k..j + 1] == w;
    WordStartAfterSpace(s, k, j);
  }

  lemma TokensDropSpace(s: string, k: nat)
    requires 0 < k <= |s| && IsSpace(s[k - 1])
    ensures Tokens(s[..k]) == Tokens(s[..k - 1])
  {
    var q := s[..k];
    assert q[..|q| - 1] == s[..k - 1];
    TokensUnfoldSpace(q);
  }

  /** Appending a space and a word to a line appends exactly that word to its tokens. */
  lemma TokensAppendWord(p: string, w: string)
    requires |w| > 0 && NoSpace(w)
    ensures Tokens(p + [' '] + w) == Tokens(p) + [w]
  {
    var s := p + [' '] + w;
    var k := |p| + 1;
    assert s[k..] == w;
    assert s[..k - 1] == p;
    assert s[k - 1] == ' ';
    TokensLastWord(s, k);
  }

  /** Words joined with single spaces split back into the same words. */
  lemma {:induction false} TokensOfJoin(ws: seq<string>)
    requires forall i :: 0 <= i < |ws| ==> |ws[i]| > 0 && NoSpace(ws[i])
    ensures Tokens(Join(ws, ' ')) == ws
    decreases |ws|
  {
    if |ws| == 1 {
      TokensOfWord(ws[0]);
    } else if |ws| > 1 {
      var init := ws[..|ws| - 1];
      var last := ws[|ws| - 1];
      assert Join(ws, ' ') == Join(init, ' ') + [' '] + last by {
        assert init + [last] == ws;
        JoinSnoc(init, last, ' ');
      }
      TokensOfJoin(init);
      TokensAppendWord(Join(init, ' '), last);
      assert init + [last] == ws;
    }
  }

  /** A single word is its only token. */
  lemma TokensOfWord(w: string)
    requires |w| > 0 && NoSpace(w)
    ensures Tokens(w) == [w]
  {
    assert w[0..|w| - 1 + 1] == w;
    WordStartAfterSpace(w, 0, |w| - 1);
    TokensUnfoldWord(w, 0);
    assert w[0..] == w;
    assert Tokens(w[..0]) == [];
  }

  /** `sep.join(parts)`. */
  function Join(parts: seq<string>, sep: char): string
    decreases |parts|
  {
    if |parts| == 0 then ""
    else if |parts| == 1 then parts[0]
    else parts[0] + [sep] + Join(parts[1..], sep)
  }

  lemma {:induction false} JoinSnoc(parts: seq<string>, last: string, sep: char)
    requires |parts| > 0
    ensures Join(parts + [last], sep) == Join(parts, sep) + [sep] + last
    decreases |parts|
  {
    if |parts| == 1 {
      assert (parts + [last])[1..] == [last];
    } else {
      assert (parts + [last])[1..] == parts[1..] + [last];
      JoinSnoc(parts[1..], last, sep);
    }
  }

  /** Index of the first occurrence of `c` in `s`. */
  function IndexOf(s: string, c: char): (i: nat)
    requires c in s
    ensures i < |s| && s[i] == c && c !in s[..i]
  {
    if s[0] == c then 0
    else
      assert c in s[1..] by { var j :| 0 <= j < |s| && s[j] == c; assert s[1..][j - 1] == c; }
      var i := 1 + IndexOf(s[1..], c);
      assert s[..i] == [s[0]] + s[1..][..i - 1];
      i
  }

  /** `s.split(sep)`: the pieces between occurrences of `sep`; never empty. */
  function Split(s: string, sep: char): (parts: seq<string>)
    ensures |parts| >= 1
    ensures forall i :: 0 <= i < |parts| ==> sep !in parts[i]
    ensures Join(parts, sep) == s
    decreases |s|
  {
    if sep !in s then [s]
    else
      var i := IndexOf(s, sep);
      var rest := Split(s[i + 1..], sep);
      assert ([s[..i]] + rest)[1..] == rest;
      assert s == s[..i] + [sep] + s[i + 1..];
      [s[..i]] + rest
  }

  /** Joining pieces that do not contain the separator and splitting again
      gives back the pieces. */
  lemma {:induction false} SplitJoin(parts: seq<string>, sep: char)
    requires |parts| >= 1
    requires forall i :: 0 <= i < |parts| ==> sep !in parts[i]
    ensures Split(Join(parts, sep), sep) == parts
    decreases |parts|
  {
    if |parts| > 1 {
      var rest := Join(parts[1..], sep);
      var s := Join(parts, sep);
      assert s == parts[0] + [sep] + rest;
      SplitAtFirst(parts[0], sep, rest);
      SplitJoin(parts[1..], sep);
      assert parts == [parts[0]] + parts[1..];
    }
  }

  /** Splitting at a separator preceded by a separator-free piece. */
  lemma SplitAtFirst(p: string, sep: char, rest: string)
    requires sep !in p
    ensures Split(p + [sep] + rest, sep) == [p] + Split(rest, sep)
  {
    var s := p + [sep] + rest;
    assert s[|p|] == sep;
    var i := IndexOf(s, sep);
    assert s[..|p|] == p;
    assert i == |p|;
    assert s[..i] == p;
    assert s[i + 1..] == rest;
  }

  /** `s.removeprefix(prefix)`. */
  function RemovePrefix(s: string, prefix: string): (r: string)
    ensures prefix <= s ==> prefix + r == s
    ensures !(prefix <= s) ==> r == s
  {
    if prefix <= s then s[|prefix|..] else s
  }
}

=== FILE: upload.dfy ===
/** Sending files: the remote name of a file (`ftp_send_file`'s naming), one
    file's descent, store and return to the root (`ftp_send_file`), the list
    in order (`ftp_send_files`), and the session around it (`uploads`). */
module Upload {
  import opened Outcome
  import opened Text
  import opened PosixPath
  import opened Remote
  import opened Navigation

  // ---------------------------------------------------------------------
  // The remote name.

  /** The name a file is stored under, as its root and its extension. */
  datatype Target = Target(filename: string, extension: string)

  /** The root of the base name of `filePath` and its extension; with
      `renameTo`, the root of `renameTo`, and its extension when it has one. */
  function RemoteName(filePath: string, renameTo: Option<string>): Target {
    var stem := Splitext(filePath);
    match renameTo
    case None => Target(Basename(stem.0), stem.1)
    case Some(rename) =>
      var r := Splitext(rename);
      Target(r.0, if |r.1| > 0 then r.1 else stem.1)
  }

  /** The argument of STOR. */
  function StoredName(t: Target): string {
    t.filename + t.extension
  }

  /** Without a rename a file is stored under its base name; a rename with an
      extension is used as it is; a rename without one keeps the file's
      extension. */
  lemma RemoteNameRule(filePath: string, renameTo: Option<string>)
    ensures renameTo.None? ==> StoredName(RemoteName(filePath, renameTo)) == Basename(filePath)
    ensures renameTo.Some? && Splitext(renameTo.value).1 != "" ==>
      StoredName(RemoteName(filePath, renameTo)) == renameTo.value
    ensures renameTo.Some? && Splitext(renameTo.value).1 == "" ==>
      StoredName(RemoteName(filePath, renameTo)) == renameTo.value + Splitext(filePath).1
  {
    BasenameOfStem(filePath);
  }

  /** A rename replaces the file's root and, when it has one, its
      extension: "data/input.csv" renamed "report.csv" or "report" is
      stored as "report.csv". */
  lemma RenameReplacesRoot()
    ensures StoredName(RemoteName("data/input.csv", Some("report.csv"))) == "report.csv"
    ensures StoredName(RemoteName("data/input.csv", Some("report"))) == "report.csv"
  {
    var named, plain, path := "report.csv", "report", "data/input.csv";
    NamedHasExtension();
    RemoteNameRule(path, Some(named));
    PlainHasNoExtension();
    PathExtension();
    RemoteNameRule(path, Some(plain));
    assert StoredName(RemoteName(path, Some(plain))) == plain + ".csv";
    assert plain + ".csv" == named;
  }

  lemma NamedHasExtension()
    ensures HasExtension("report.csv")
  {
    var named := "report.csv";
    RFindAt(named, '.', 6);
    RFindAt(named, '/', -1);
    assert named[0] != '.';
  }

  lemma PlainHasNoExtension()
    ensures !HasExtension("report") && Splitext("report").1 == ""
  {
    RFindAt("report", '.', -1);
    RFindAt("report", '/', -1);
  }

  lemma PathExtension()
    ensures HasExtension("data/input.csv") && Splitext("data/input.csv").1 == ".csv"
  {
    var path := "data/input.csv";
    RFindAt(path, '.', 10);
    RFindAt(path, '/', 4);
    assert path[5] != '.';
    assert Splitext(path).1 == path[10..] == ".csv";
  }

  // ---------------------------------------------------------------------
  // One file.

  /** The segments `ftp_send_file` walks: those of the base directory when
      there is one, then those of the file's directory unless it equals the
      file's root name. */
  function Route(baseDir: Option<string>, dirPath: string, filename: string): seq<string> {
    (if baseDir.Some? then Segments(baseDir.value) else [])
      + (if dirPath != filename then Segments(dirPath) else [])
  }

  /** The route of one file, from its path. */
  function FileRoute(filePath: string, baseDir: Option<string>, renameTo: Option<string>): seq<string> {
    Route(baseDir, Normpath(Dirname(filePath)), RemoteName(filePath, renameTo).filename)
  }

  /** `chdir_nested(base_dir)` when there is one, then `chdir_nested(path)`
      when `path != filename`. */
  function Descend(s: Session, baseDir: Option<string>, dirPath: string, filename: string): Step {
    var b := if baseDir.Some? then ChdirNested(s, baseDir.value) else Done(s);
    if b.Raised? || dirPath == filename then b else ChdirNested(b.s, dirPath)
  }

  /** The two descents are one walk along the route. */
  lemma DescendWalksRoute(s: Session, baseDir: Option<string>, dirPath: string, filename: string)
    ensures Descend(s, baseDir, dirPath, filename) == Walk(s, Route(baseDir, dirPath, filename))
  {
    var a := if baseDir.Some? then Segments(baseDir.value) else [];
    var b := if dirPath != filename then Segments(dirPath) else [];
    assert Route(baseDir, dirPath, filename) == a + b;
    WalkAppend(s, a, b);
    var first := Walk(s, a);
    assert first == if baseDir.Some? then ChdirNested(s, baseDir.value) else Done(s) by {
      if baseDir.None? {
        assert Walk(s, []) == Done(s);
      }
    }
    DescendAfter(s, baseDir, dirPath, filename, first);
    if !first.Raised? && dirPath == filename {
      assert Walk(first.s, []) == first;
    }
  }

  /** `Descend` is the base directory's descent, then the directory's
      unless the first raised or the directory is the file's root name. */
  lemma DescendAfter(s: Session, baseDir: Option<string>, dirPath: string, filename: string, first: Step)
    requires first == if baseDir.Some? then ChdirNested(s, baseDir.value) else Done(s)
    ensures Descend(s, baseDir, dirPath, filename)
      == if first.Raised? || dirPath == filename then first else ChdirNested(first.s, dirPath)
  {
  }

  /** `ftp_send_file` normalises the file's directory and `chdir_nested`
      normalises it again; the second pass changes nothing. */
  lemma NormalisedTwice(filePath: string)
    ensures Segments(Normpath(Dirname(filePath))) == Segments(Dirname(filePath))
  {
    NormpathIdempotent(Dirname(filePath));
  }

  /** STOR the file in the current directory, then `chdir('/')`. */
  function StoreAndReturn(s: Session, name: string): (r: Step)
    ensures Extends(s, r.s) && NoQuit(Issued(s, r.s))
    ensures Stores(Issued(s, r.s)) == [Stor(s.cwd, name)]
    ensures r.Done? <==> s.cwd + [name] !in s.server.refused && !IsDir(s.server, s.cwd + [name])
    ensures r.Done? ==> r.s.cwd == [] && Issued(s, r.s) == [Stor(s.cwd, name), Cwd(s.cwd, "/")]
    ensures r.Done? ==> Cwds(Issued(s, r.s)) == [Cwd(s.cwd, "/")]
    ensures r.Raised? ==> r.s.cwd == s.cwd && Issued(s, r.s) == [Stor(s.cwd, name)]
    ensures r.Raised? ==> r.error == FtpRefused("STOR " + name)
  {
    var st := StorCommand(s, name);
    if st.Raised? then
      StoresOne(Stor(s.cwd, name));
      st
    else
      var r := Chdir(st.s, "/");
      StoreThenRoot(s, name, st.s, r);
      r
  }

  /** A STOR followed by `chdir('/')`: two commands, one of each kind. */
  lemma StoreThenRoot(s: Session, name: string, t: Session, r: Step)
    requires Extends(s, t) && t.trace == s.trace + [Stor(s.cwd, name)] && t.cwd == s.cwd
    requires r == Chdir(t, "/")
    ensures Extends(s, r.s) && r == Done(r.s) && r.s.cwd == []
    ensures Issued(s, r.s) == [Stor(s.cwd, name), Cwd(s.cwd, "/")]
    ensures NoQuit(Issued(s, r.s))
    ensures Stores(Issued(s, r.s)) == [Stor(s.cwd, name)]
    ensures Cwds(Issued(s, r.s)) == [Cwd(s.cwd, "/")]
  {
    var ops := Issued(s, r.s);
    assert ops == [Stor(s.cwd, name)] + [Cwd(s.cwd, "/")];
    StoresAppend([Stor(s.cwd, name)], [Cwd(s.cwd, "/")]);
    StoresOne(Stor(s.cwd, name));
    StoresOne(Cwd(s.cwd, "/"));
    CwdsAppend([Stor(s.cwd, name)], [Cwd(s.cwd, "/")]);
    CwdsOne(Stor(s.cwd, name));
    CwdsOne(Cwd(s.cwd, "/"));
  }

  lemma StoresOne(op: Op)
    ensures Stores([op]) == if op.Stor? then [op] else []
  {
    assert [op][1..] == [];
  }

  /** `ftp_send_file(session, file_path, base_dir, rename_to)`, with `local`
      the files that can be opened: open the file, descend, STOR, return to
      the root.  Nothing restores the cursor when a step raises. */
  function SendFile(s: Session, local: set<string>, filePath: string, baseDir: Option<string>,
                    renameTo: Option<string>): (r: Step)
    ensures Extends(s, r.s) && NoQuit(Issued(s, r.s))
    ensures filePath !in local ==> r == Raised(s, FileNotFound(filePath))
    ensures r.Done? ==> r.s.cwd == []
    ensures r.Done? ==> (Stores(Issued(s, r.s)) ==
      [Stor(EnterAll(s.cwd, FileRoute(filePath, baseDir, renameTo)), StoredName(RemoteName(filePath, renameTo)))])
    ensures r.Raised? ==> (Stores(Issued(s, r.s)) == [] ||
      Stores(Issued(s, r.s)) == [Stor(r.s.cwd, StoredName(RemoteName(filePath, renameTo)))])
  {
    if filePath !in local then
      assert Issued(s, s) == [];
      Raised(s, FileNotFound(filePath))
    else
      var target := RemoteName(filePath, renameTo);
      var route := FileRoute(filePath, baseDir, renameTo);
      var d := Descend(s, baseDir, Normpath(Dirname(filePath)), target.filename);
      DescendWalksRoute(s, baseDir, Normpath(Dirname(filePath)), target.filename);
      NavOnlyQuiet(Issued(s, d.s));
      if d.Raised? then d
      else
        var r := StoreAndReturn(d.s, StoredName(target));
        SendFileJoin(s, d.s, r.s);
        r
  }

  /** A descent followed by a store keeps no QUIT and only the store's STOR. */
  lemma SendFileJoin(s: Session, t: Session, u: Session)
    requires Extends(s, t) && Extends(t, u)
    requires NoQuit(Issued(s, t)) && Stores(Issued(s, t)) == [] && NoQuit(Issued(t, u))
    ensures Extends(s, u) && NoQuit(Issued(s, u)) && Stores(Issued(s, u)) == Stores(Issued(t, u))
    ensures Cwds(Issued(s, u)) == Cwds(Issued(s, t)) + Cwds(Issued(t, u))
  {
    SendEachJoin(s, t, u);
    assert [] + Stores(Issued(t, u)) == Stores(Issued(t, u));
    IssuedCompose(s, t, u);
    CwdsAppend(Issued(s, t), Issued(t, u));
  }

  /** `SendFile` of a file that opens is the walk along its route followed,
      unless the walk raised, by the store. */
  lemma SendFileParts(s: Session, local: set<string>, filePath: string, baseDir: Option<string>,
                      renameTo: Option<string>) returns (d: Step)
    requires filePath in local
    ensures d == Walk(s, FileRoute(filePath, baseDir, renameTo))
    ensures Extends(s, d.s) && Stores(Issued(s, d.s)) == [] && NoQuit(Issued(s, d.s))
    ensures SendFile(s, local, filePath, baseDir, renameTo) ==
      if d.Raised? then d else StoreAndReturn(d.s, StoredName(RemoteName(filePath, renameTo)))
  {
    var target := RemoteName(filePath, renameTo);
    d := Descend(s, baseDir, Normpath(Dirname(filePath)), target.filename);
    DescendWalksRoute(s, baseDir, Normpath(Dirname(filePath)), target.filename);
    NavOnlyQuiet(Issued(s, d.s));
  }

  /** A completed send walks the base directory, then the file's directory,
      then returns to the root: its CWD commands are exactly those. */
  lemma {:induction false} SendFileDescends(s: Session, local: set<string>, filePath: string, baseDir: Option<string>,
                         renameTo: Option<string>)
    requires SendFile(s, local, filePath, baseDir, renameTo).Done?
    ensures Cwds(Issued(s, SendFile(s, local, filePath, baseDir, renameTo).s)) ==
      Descent(s.cwd, FileRoute(filePath, baseDir, renameTo) + ["/"])
  {
    assert filePath in local;
    var route := FileRoute(filePath, baseDir, renameTo);
    var d := SendFileParts(s, local, filePath, baseDir, renameTo);
    var r := StoreAndReturn(d.s, StoredName(RemoteName(filePath, renameTo)));
    SendFileJoin(s, d.s, r.s);
    DescentAppend(s.cwd, route, ["/"]);
    assert Descent(d.s.cwd, ["/"]) == [Cwd(d.s.cwd, "/")];
  }

  /** A refused STOR leaves the cursor in the directory it was sent from: the
      return to the root is not reached. */
  lemma SendFileNoRestore(s: Session, local: set<string>, filePath: string, baseDir: Option<string>,
                          renameTo: Option<string>)
    requires var r := SendFile(s, local, filePath, baseDir, renameTo); r.Raised? && Stores(Issued(s, r.s)) != []
    ensures var r := SendFile(s, local, filePath, baseDir, renameTo);
      && r.error == FtpRefused("STOR " + StoredName(RemoteName(filePath, renameTo)))
      && r.s.cwd == EnterAll(s.cwd, FileRoute(filePath, baseDir, renameTo))
      && Issued(s, r.s)[|Issued(s, r.s)| - 1] == Stor(r.s.cwd, StoredName(RemoteName(filePath, renameTo)))
  {
    assert filePath in local;
    var d := SendFileParts(s, local, filePath, baseDir, renameTo);
    var r := StoreAndReturn(d.s, StoredName(RemoteName(filePath, renameTo)));
    SendFileJoin(s, d.s, r.s);
  }

  /** `path != filename` compares a directory with a file's root: "a/a.txt"
      is stored in the base directory, not in "a". */
  lemma SameNameDoesNotDescend()
    ensures RemoteName("a/a.txt", None).filename == "a"
    ensures Normpath(Dirname("a/a.txt")) == "a"
    ensures FileRoute("a/a.txt", None, None) == []
  {
    var p := "a/a.txt";
    RFindAt(p, '/', 1);
    RFindAt(p, '.', 3);
    assert p[2] != '.';
    assert HasExtension(p);
    assert Splitext(p).0 == p[..3] == "a/a";
    RFindAt("a/a", '/', 1);
    assert Basename("a/a") == "a";
    assert Dirname(p) == "a" by {
      assert p[..2] == "a/";
      assert !AllSlashes("a/") by { assert "a/"[0] != '/'; }
      assert RStrip("a", '/') == "a";
      assert RStrip("a/", '/') == "a" by { assert "a/"[..1] == "a"; }
    }
    NormpathOfName("a");
  }

  // ---------------------------------------------------------------------
  // The list of files.

  /** `stores` are STOR commands naming, in order, the base names of the
      leading files of `paths`. */
  predicate StoresNames(stores: seq<Op>, paths: seq<string>)
    decreases |stores|
  {
    || stores == []
    || (&& paths != [] && stores[0].Stor? && stores[0].name == Basename(paths[0])
        && StoresNames(stores[1..], paths[1..]))
  }

  /** The i-th STOR names the i-th file. */
  lemma {:induction false} StoresNamesMeaning(stores: seq<Op>, paths: seq<string>)
    requires StoresNames(stores, paths)
    ensures |stores| <= |paths|
    ensures forall i :: 0 <= i < |stores| ==> stores[i].Stor? && stores[i].name == Basename(paths[i])
    decreases |stores|
  {
    if stores != [] {
      StoresNamesMeaning(stores[1..], paths[1..]);
      assert forall i :: 1 <= i < |stores| ==> stores[i] == stores[1..][i - 1] && paths[i] == paths[1..][i - 1];
    }
  }

  /** The loop of `ftp_send_files`: send each file in order; the first raise
      ends the loop. */
  function SendEach(s: Session, local: set<string>, paths: seq<string>, baseDir: Option<string>): (r: Step)
    ensures Extends(s, r.s) && NoQuit(Issued(s, r.s))
    ensures StoresNames(Stores(Issued(s, r.s)), paths)
    ensures r.Done? ==> |Stores(Issued(s, r.s))| == |paths|
    ensures r.Done? && paths != [] ==> r.s.cwd == []
    decreases |paths|
  {
    if paths == [] then
      assert Issued(s, s) == [];
      Done(s)
    else
      var f := SendFile(s, local, paths[0], baseDir, None);
      RemoteNameRule(paths[0], None);
      if f.Raised? then
        var first := Stores(Issued(s, f.s));
        FirstThenRest(first, [], paths);
        assert first + [] == first;
        f
      else
        var r := SendEach(f.s, local, paths[1..], baseDir);
        SendEachJoin(s, f.s, r.s);
        FirstThenRest(Stores(Issued(s, f.s)), Stores(Issued(f.s, r.s)), paths);
        r
  }

  /** The STOR of the first file, if it was reached, then those of the rest. */
  lemma FirstThenRest(first: seq<Op>, rest: seq<Op>, paths: seq<string>)
    requires paths != [] && StoresNames(rest, paths[1..])
    requires first == [] ==> rest == []
    requires first != [] ==> |first| == 1 && first[0].Stor? && first[0].name == Basename(paths[0])
    ensures StoresNames(first + rest, paths) && |first + rest| == |first| + |rest|
  {
    if first == [] {
      assert first + rest == [];
    } else {
      assert (first + rest)[0] == first[0];
      assert (first + rest)[1..] == rest;
    }
  }

  lemma SendEachJoin(s: Session, t: Session, u: Session)
    requires Extends(s, t) && Extends(t, u)
    requires NoQuit(Issued(s, t)) && NoQuit(Issued(t, u))
    ensures Extends(s, u) && NoQuit(Issued(s, u))
    ensures Stores(Issued(s, u)) == Stores(Issued(s, t)) + Stores(Issued(t, u))
  {
    var a := Issued(s, t);
    var b := Issued(t, u);
    assert s.trace <= u.trace;
    assert s.server.entries <= u.server.entries;
    IssuedCompose(s, t, u);
    assert Issued(s, u) == a + b;
    StoresAppend(a, b);
    NoQuitAppend(a, b);
  }

  lemma NoQuitAppend(a: seq<Op>, b: seq<Op>)
    requires NoQuit(a) && NoQuit(b)
    ensures NoQuit(a + b)
  {
    forall i | 0 <= i < |a + b| ensures !(a + b)[i].Quit? {
      if i >= |a| { assert (a + b)[i] == b[i - |a|]; }
    }
  }

  /** Sending `a + b` sends `a`, then, unless that raised, `b` from where `a`
      left the session: files go in list order and a raise stops the rest. */
  lemma {:induction false} SendEachAppend(s: Session, local: set<string>, a: seq<string>, b: seq<string>,
                                          baseDir: Option<string>)
    ensures SendEach(s, local, a + b, baseDir) ==
      if SendEach(s, local, a, baseDir).Raised? then SendEach(s, local, a, baseDir)
      else SendEach(SendEach(s, local, a, baseDir).s, local, b, baseDir)
    decreases |a|
  {
    if a == [] {
      assert a + b == b;
    } else {
      assert (a + b)[0] == a[0];
      assert (a + b)[1..] == a[1..] + b;
      var f := SendFile(s, local, a[0], baseDir, None);
      if f.Raised? {
        assert SendEach(s, local, a, baseDir) == f;
      } else {
        SendEachAppend(f.s, local, a[1..], b, baseDir);
        assert SendEach(s, local, a + b, baseDir) == SendEach(f.s, local, a[1..] + b, baseDir);
        assert SendEach(s, local, a, baseDir) == SendEach(f.s, local, a[1..], baseDir);
      }
    }
  }

  /** `ftp_send_files`: the loop, then the closing progress line, which for an
      empty list divides zero by zero. */
  function SendFiles(s: Session, local: set<string>, paths: seq<string>, baseDir: Option<string>): (r: Step)
    ensures Extends(s, r.s) && NoQuit(Issued(s, r.s))
    ensures paths == [] ==> r == Raised(s, ZeroDivision)
    ensures paths != [] ==> r == SendEach(s, local, paths, baseDir)
  {
    if paths == [] then
      assert Issued(s, s) == [];
      Raised(s, ZeroDivision)
    else SendEach(s, local, paths, baseDir)
  }

  // ---------------------------------------------------------------------
  // The session.

  /** What `uploads` leaves behind: the session when one was opened, and the
      exception it raised, if any. */
  datatype Report = Report(session: Option<Session>, error: Option<Error>)

  /** The session that `uploads` opens. */
  function Fresh(srv: Server): Session {
    Session(srv, [], [], true)
  }

  /** `uploads`: `conn` is what `open_ftp` produced (None when it raised);
      the files are sent from the root of a fresh session, which is quit
      whatever the sends did. */
  function Uploads(conn: Option<Server>, local: set<string>, baseDir: Option<string>, paths: seq<string>): (r: Report)
    ensures conn.None? ==> r == Report(None, Some(ConnectFailed))
    ensures conn.Some? ==> r.session.Some?
    ensures conn.Some? ==> QuitCount(r.session.value.trace) == 1 && !r.session.value.open
    ensures conn.Some? ==> |r.session.value.trace| > 0 && r.session.value.trace[|r.session.value.trace| - 1] == Quit
    ensures conn.Some? && paths == [] ==> r.error == Some(ZeroDivision)
  {
    match conn
    case None => Report(None, Some(ConnectFailed))
    case Some(srv) =>
      var s := Fresh(srv);
      var sent := SendFiles(s, local, paths, baseDir);
      var q := QuitCommand(sent.s);
      QuitOnce(s, sent.s, q);
      Report(Some(q), if sent.Raised? then Some(sent.error) else None)
  }

  /** Quitting a session opened with an empty trace, in which nothing has
      quit yet, leaves exactly one QUIT, as the last command. */
  lemma QuitOnce(s: Session, t: Session, q: Session)
    requires s.trace == [] && Extends(s, t) && NoQuit(Issued(s, t))
    requires q == QuitCommand(t)
    ensures QuitCount(q.trace) == 1 && !q.open
    ensures |q.trace| > 0 && q.trace[|q.trace| - 1] == Quit
  {
    assert Issued(s, t) == t.trace;
    NoQuitCount(t.trace);
    QuitCountAppend(t.trace, [Quit]);
    assert QuitCount([Quit]) == 1 by { assert [Quit][1..] == []; }
  }

  /** The script passes an empty base directory by default; `normpath('')`
      is ".", so on a server whose LIST omits the dot entries the first file
      that opens makes `uploads` send MKD "." and fail, still quitting. */
  lemma DefaultBaseDirRefused(srv: Server, local: set<string>, paths: seq<string>)
    requires WellNamed(srv) && !srv.listsDots && paths != [] && paths[0] in local
    ensures Uploads(Some(srv), local, Some(""), paths).error == Some(FtpRefused("MKD ."))
    ensures Uploads(Some(srv), local, Some(""), paths).session.value.trace == [Mkd([], "."), Quit]
  {
    var s := Fresh(srv);
    var f := Raised(s.(trace := [Mkd([], ".")]), FtpRefused("MKD ."));
    assert Uploads(Some(srv), local, Some(""), paths) == Report(Some(QuitCommand(f.s)), Some(f.error)) by {
      var g := EmptyBaseDirRefused(s, local, paths[0]);
      assert g == f;
      SendEachFirstRaises(s, local, paths, Some(""));
      UploadsOfRaised(srv, local, Some(""), paths, g);
    }
  }

  lemma UploadsOfRaised(srv: Server, local: set<string>, baseDir: Option<string>, paths: seq<string>, f: Step)
    requires f.Raised? && SendFiles(Fresh(srv), local, paths, baseDir) == f
    ensures Uploads(Some(srv), local, baseDir, paths) == Report(Some(QuitCommand(f.s)), Some(f.error))
  {
  }

  /** A raise on the first file ends the loop there. */
  lemma SendEachFirstRaises(s: Session, local: set<string>, paths: seq<string>, baseDir: Option<string>)
    requires paths != [] && SendFile(s, local, paths[0], baseDir, None).Raised?
    ensures SendFiles(s, local, paths, baseDir) == SendFile(s, local, paths[0], baseDir, None)
  {
  }

  /** Sending a file that opens with an empty base directory: the walk
      starts with ".", whose MKD is refused. */
  lemma EmptyBaseDirRefused(s: Session, local: set<string>, filePath: string) returns (f: Step)
    requires WellNamed(s.server) && !s.server.listsDots && filePath in local
    ensures f == SendFile(s, local, filePath, Some(""), None)
    ensures f == Raised(s.(trace := s.trace + [Mkd(s.cwd, ".")]), FtpRefused("MKD ."))
  {
    var d := SendFileParts(s, local, filePath, Some(""), None);
    var dirPath := Normpath(Dirname(filePath));
    var rest := if dirPath != RemoteName(filePath, None).filename then Segments(dirPath) else [];
    EmptyDirectoryIsDot(s);
    assert FileRoute(filePath, Some(""), None) == ["."] + rest;
    WalkAppend(s, ["."], rest);
    f := d;
  }

  /** When every send succeeded, the STOR commands name the files in list
      order, one each, and the QUIT is the last command. */
  lemma UploadsInOrder(srv: Server, local: set<string>, baseDir: Option<string>, paths: seq<string>)
    requires Uploads(Some(srv), local, baseDir, paths).error.None?
    ensures var trace := Uploads(Some(srv), local, baseDir, paths).session.value.trace;
      && |Stores(trace)| == |paths|
      && forall i :: 0 <= i < |paths| ==> Stores(trace)[i].Stor? && Stores(trace)[i].name == Basename(paths[i])
  {
    var s := Fresh(srv);
    var sent := SendFiles(s, local, paths, baseDir);
    var q := QuitCommand(sent.s);
    assert Uploads(Some(srv), local, baseDir, paths).session == Some(q);
    assert sent.Done? && paths != [];
    assert Issued(s, sent.s) == sent.s.trace;
    StoresAppend(sent.s.trace, [Quit]);
    assert Stores([Quit]) == [] by { assert [Quit][1..] == []; }
    assert Stores(q.trace) == Stores(sent.s.trace);
    StoresNamesMeaning(Stores(sent.s.trace), paths);
  }
}
